=== FILE: README.md ===
# FloeDyn collision control logic in Dafny

This project models the control logic of FloeDyn's collision resolution, plus
the small pure helpers of its output file and of its Python tools. It states
and proves what that logic promises.

- `LcpSolver` (`lcp_solver.dfy`) models the fallback solver of
  `src/floe/ope/LCP_solver.hpp`:
  - the walk over the 23-entry escalation table of (strategy, tier) pairs;
  - the best-so-far candidate, scored on the unperturbed copy of the problem;
  - the tiered acceptance test `LCPtest` and the normal-velocity test `VRelNtest`;
  - `solve(lcp)`: Lemke, then lexicographic Lemke.
- `LcpManager` (`lcp_manager.dfy`) models the collision manager of
  `src/floe/lcp/LCP_manager.hpp`:
  - the bounded per-cluster loop over the active contact groups;
  - groups of more than 50 contact points split by `quad_cut`;
  - the leftover handling after the loop;
  - `update_floes_state`;
  - the totals kept across calls and `success_ratio`.
- `LegacyManager` (`legacy_manager.dfy`) models the older manager of
  `src/floe/ope/LCP_manager.hpp`, taken sequentially.
- `ContactGraph` (`contact_graph.dfy`) holds the contact-group views both
  managers share. The solved flag that copies of a contact share is one entry
  of a table keyed by the contact's identifier.
- `FloeContactModel` (`floe_contact.dfy`) models the contact record of
  `src/floe/collision/floe_contact.hpp`. Its solved flag is a heap object, so
  copies alias it the way they alias the `shared_ptr<bool>`.
- `Hdf5Output` (`hdf5_output.dfy`) models the output manager of
  `src/floe/io/hdf5_manager.hpp`:
  - the step and chunk counters of `save_step`;
  - the flush every 100 steps, with its offset and extent arithmetic;
  - the flush in the destructor;
  - the frame layout;
  - the index search of `recover_states`.

  The file is three sequences: the outlines of each floe, the frames and the
  times.
- `Plotter` (`plotter.dfy`) models `_get_trunks` and `calc_impulses` of
  `plot/plotter.py`, a Python 2 script, so integer `/` is floor division.
- `PackCreator` (`pack_creator.dfy`) models these helpers of
  `pack_creator/pack_creator.py`, a Python 3 script:
  - the 9-number state record;
  - the rectangle outline;
  - `translate_floe_group`;
  - `get_window`;
  - the index formula of `_discretize_biblio_floes`.
- `Floes` (`floes.dfy`) and `Wrappers` (`wrappers.dfy`) hold the shared floe
  state types and `Option`.

The numerical collaborators are parameters: function-typed fields of a
datatype. Being functions, they are deterministic: the same arguments always
give the same result. Beyond that, they are only assumed to keep to the shapes
the code relies on, and `quad_cut` to return subgraphs of the group it cuts.
They are:
- Lemke and lexicographic Lemke, `LCP_error`, `calcSol`, `calcEc`, and the
  product `J^T * Sol`;
- `random_perturbation`;
- `active_subgraphs`, `quad_cut`, and the solver as seen by the managers.

`real` stands for `double`, and a NaN is a boolean flag next to the vector it
was found in.

`recover_states` restores the last stored time strictly before the query. Its
index search stops at the first stored time that is not below the query and
steps back one, so a stored time equal to the query is never chosen
(`Hdf5Output.LatestBefore`, `Hdf5Output.RecoverStates`).

## Model

| member | source | states |
|---|---|---|
| LcpSolver.TableShape | src/floe/ope/LCP_solver.hpp:87-94 | The table has 23 entries, every tier is 1, 2 or 3, and no Lemke or lexicographic-Lemke entry is last; the entry after one of them has the same tier |
| LcpSolver.AcceptTier | src/floe/ope/LCP_solver.hpp:129-162 | The tier read after the index increment stays inside the table and equals the tier of the entry whose candidate is being scored |
| LcpSolver.LcpTest | src/floe/ope/LCP_solver.hpp:170-188 | For tiers 1 to 3, accepts exactly when the candidate meets that tier's energy slack (1e-4, 1e-4, 1e-2), its residual bound (1e-11, 1e-8, none) and the velocity test; any other tier accepts |
| LcpSolver.TiersNested | src/floe/ope/LCP_solver.hpp:170-188 | With a non-negative energy bound, whatever tier 1 accepts tier 2 accepts, and whatever tier 2 accepts tier 3 accepts |
| LcpSolver.VRelNTest | src/floe/ope/LCP_solver.hpp:220-238 | Returns true exactly when every contact point, taken edge by edge then point by point, fails to have a negative velocity whose product with the time step exceeds its gap over 50 |
| LcpSolver.NonNegativeGapsAlwaysPass | src/floe/ope/LCP_solver.hpp:228-232 | With a non-negative time step and non-negative gaps the velocity test never rejects |
| LcpSolver.Perturbation | src/floe/ope/LCP_solver.hpp:209-218 | The perturbed matrix keeps the shape of the original and every zero entry stays zero |
| LcpSolver.SolveLcp | src/floe/ope/LCP_solver.hpp:72-75 | Succeeds exactly when Lemke succeeds or, on what Lemke left, lexicographic Lemke succeeds; matrix and vector are untouched |
| LcpSolver.LexicoOnlyAfterLemkeFails | src/floe/ope/LCP_solver.hpp:72-75 | When Lemke succeeds the outcome does not depend on the lexicographic algorithm at all |
| LcpSolver.RunStrategy | src/floe/ope/LCP_solver.hpp:111-132 | Only a Lemke or lexicographic-Lemke entry can report success; no strategy changes the vector, and only perturbation changes the matrix |
| LcpSolver.StepSpec | src/floe/ope/LCP_solver.hpp:102-162 | One iteration advances the table index by exactly one and keeps the invariant: the unperturbed copy holds the original matrix and vector and carries the best `z`, whose residual is the best error, and a solved state is an accepted one. The best error never increases. An unscored attempt (failure or NaN in `z`) changes nothing else, and a scored one passes the best `z` on to `calcSol` |
| LcpSolver.RunSpec | src/floe/ope/LCP_solver.hpp:102-109 | The loop ends within the table, solved or with all 23 entries tried, with the invariant kept and the best error no worse than at the start |
| LcpSolver.SolveGraph | src/floe/ope/LCP_solver.hpp:80-166 | On exhaustion returns the free velocity with success false. On success returns a NaN-free solution derived from some candidate, with kinetic-energy ratio at most 1.01, that passes the velocity test |
| LcpManager.UpdateFloesState | src/floe/lcp/LCP_manager.hpp:262-270 | The scene keeps its size, no floe changes position or orientation, and floes that are not vertices of the group do not change |
| LcpManager.UpdateFloesStateEffect | src/floe/lcp/LCP_manager.hpp:262-270 | With distinct vertices, the floe of vertex `v` gets speed `(Sol[0][3v], Sol[0][3v+1])`, rotation `Sol[0][3v+2]` and impulse increased by `Sol[1][v]` |
| LcpManager.SolveOne | src/floe/lcp/LCP_manager.hpp:151-154 | Counts one success exactly when the solver succeeds, marks every contact of the group with that outcome, and keeps the flag of every other contact |
| LcpManager.SolveEach | src/floe/lcp/LCP_manager.hpp:144-149 | Solving the pieces in turn counts at most one success per piece and keeps the flag of every contact in no piece |
| LcpManager.SolveActiveGroup | src/floe/lcp/LCP_manager.hpp:142-155 | A group of at most 50 contact points counts one success exactly when its solve succeeds and has every contact marked with that outcome; a larger one counts at most one success per `quad_cut` piece; either way the flags of contacts outside the group are kept |
| LcpManager.PiecesMarkedWithOwnOutcome | src/floe/lcp/LCP_manager.hpp:144-149 | When no contact is in two pieces, every piece's contacts end up marked with that piece's own outcome, solved on the scene the pieces before it left |
| LcpManager.SplitGroupMarked | src/floe/lcp/LCP_manager.hpp:142-149 | A group of more than 50 contact points cut into pieces sharing no contact has each piece's contacts marked with that piece's own outcome, and no flag outside the group changes |
| LcpManager.RunPass | src/floe/lcp/LCP_manager.hpp:140-157 | A pass keeps the scene size and the flag of every contact in no active group |
| LcpManager.FailingPassCountsNothing | src/floe/lcp/LCP_manager.hpp:139-157 | With a solver that never succeeds, a pass counts no success, split groups included |
| LcpManager.SplitGroupOutcounts | src/floe/lcp/LCP_manager.hpp:138-155 | A split group adds one to `LCP_count` but counts a success per piece: two solved pieces give two successes |
| LcpManager.Finish | src/floe/lcp/LCP_manager.hpp:173-179 | `all_solved` holds exactly when no group is active; otherwise every remaining contact is marked unsolved, the flags of contacts in no remaining group are kept, and the remaining groups are added to `LCP_count` |
| LcpManager.Pass | src/floe/lcp/LCP_manager.hpp:136-165 | One pass adds the number of active groups to `LCP_count` and its successes to `nb_success`, and records both |
| LcpManager.Passes | src/floe/lcp/LCP_manager.hpp:132-172 | The loop as written stops only with no active group or with the budget `min(60 * contacts, 1000)` spent |
| LcpManager.ClusterLoop | src/floe/lcp/LCP_manager.hpp:127-179 | The number of passes never exceeds `min(60 * contacts, 1000)`, hence never more than 1000 |
| LcpManager.PassesNonEmpty | src/floe/lcp/LCP_manager.hpp:132-135 | Every pass runs over a non-empty set of active groups |
| LcpManager.PassesCount | src/floe/lcp/LCP_manager.hpp:132-165 | `LCP_count` grows by the size of every pass and `nb_success` by the successes of every pass |
| LcpManager.ClusterLoopSpec | src/floe/lcp/LCP_manager.hpp:127-179 | The cluster loop makes at most `min(60 * contacts, 1000)` passes, each over a non-empty active set. `LCP_count` grows by every pass's size plus the leftover groups, and `nb_success` by every pass's successes. `all_solved` holds exactly when nothing is left active; otherwise the whole budget was spent and every leftover contact is marked unsolved |
| LcpManager.ProgressGuardNeverFires | src/floe/lcp/LCP_manager.hpp:129-136 | As written, a solver that always fails on a cluster that stays active gets the whole budget (at least 60 passes), all with zero successes, where the guard the comment describes stops after one pass |
| LcpManager.NoProgressLoop | src/floe/lcp/LCP_manager.hpp:132-165 | With a solver that never succeeds, every pass of the loop counts zero successes |
| LcpManager.PassesGuarded | src/floe/lcp/LCP_manager.hpp:132-137 | The loop with the progress guard live stays within the budget and keeps the loop state reachable |
| LcpManager.ClusterLoopGuarded | src/floe/lcp/LCP_manager.hpp:127-179 | The guarded cluster loop keeps the scene size, stays within the pass budget and never lowers the counters |
| LcpManager.PassesGuardedCounts | src/floe/lcp/LCP_manager.hpp:132-165 | The guarded loop never lowers `LCP_count` or `nb_success` |
| LcpManager.GuardedStopsWithoutProgress | src/floe/lcp/LCP_manager.hpp:132-137 | With the guard live, a pass without progress is always the last one, and a loop that stops with groups active has spent its budget or just made such a pass |
| LcpManager.GuardedClusterSpec | src/floe/lcp/LCP_manager.hpp:129-137 | For the guarded loop, no pass with zero successes is followed by another; `all_solved` holds exactly when nothing is active; an unresolved cluster spent its budget or ended on a fruitless pass |
| LcpManager.SolveCluster | src/floe/lcp/LCP_manager.hpp:115-179 | One cluster, with the loop as written, makes at most `min(60 * contacts, 1000)` passes and keeps the scene size. `LCP_count` grows by every pass's size plus the groups left active, and `nb_success` by every pass's successes. `all_solved` holds exactly when no group is left active, and otherwise the whole budget was spent |
| LcpManager.SolveClusters | src/floe/lcp/LCP_manager.hpp:115-204 | The clusters in order keep the scene size and never lower the call's counters |
| LcpManager.Runs | src/floe/lcp/LCP_manager.hpp:115-204 | One result per cluster, each cluster started from the scene and counters the previous one left |
| LcpManager.SolveClustersCounts | src/floe/lcp/LCP_manager.hpp:115-204 | Over the clusters, `LCP_count` grows by the sum, over every cluster's run, of its pass sizes and its leftover groups, and `nb_success` by the sum of every pass's successes |
| LcpManager.SolveContacts | src/floe/lcp/LCP_manager.hpp:246-256 | The call's `LCP_count` is added to the LCP total, its `nb_success` to the success total, its failure statistics elementwise to the totals', and its non-negative `nb_success` is returned |
| LcpManager.SolveContactsCounts | src/floe/lcp/LCP_manager.hpp:115-256 | One call adds to the LCP total every pass's size plus every cluster's leftover groups, and returns and adds to the success total every pass's successes |
| LcpManager.SuccessRatio | src/floe/lcp/LCP_manager.hpp:60 | 100 with no LCP yet, otherwise the value whose product with the LCP total is 100 times the success total |
| LcpManager.SuccessRatioBound | src/floe/lcp/LCP_manager.hpp:60 | With some LCP, the ratio is at most 100 exactly when successes do not exceed LCPs |
| LegacyManager.UpdateFloesState | src/floe/ope/LCP_manager.hpp:127-135 | The scene keeps its size, positions, orientations and impulses never change, and non-vertices do not change at all |
| LegacyManager.UpdateFloesStateEffect | src/floe/ope/LCP_manager.hpp:127-135 | With distinct vertices, the floe of vertex `v` gets speed `(Sol(3v), Sol(3v+1))` and rotation `Sol(3v+2)` |
| LegacyManager.SolveGroup | src/floe/ope/LCP_manager.hpp:91-97 | Each group is marked with its own solve outcome, one success is counted exactly when it succeeds, and the flags of other contacts are kept |
| LegacyManager.UpdateIgnoresOutcome | src/floe/ope/LCP_manager.hpp:93-97 | The state update happens whatever the outcome: a failed and a successful solve with the same vector move the floes identically |
| LegacyManager.RunPass | src/floe/ope/LCP_manager.hpp:89-98 | A pass keeps the scene size and counts at most one success per active group |
| LegacyManager.ClusterLoop | src/floe/ope/LCP_manager.hpp:83-101 | The older loop keeps the loop state reachable and never lowers the success count |
| LegacyManager.ClusterLoopSpec | src/floe/ope/LCP_manager.hpp:85-100 | The older loop makes at most `60 * contacts` passes and stops exactly when no group is active or that budget is spent; `LCP_count` grows by every pass's size, and successes by no more than that |
| LegacyManager.NoCeiling | src/floe/ope/LCP_manager.hpp:85 | With no 1000 ceiling, a cluster of 20 contact points that stays active gets 1200 passes |
| LegacyManager.SolveContacts | src/floe/ope/LCP_manager.hpp:80-102 | The clusters in order keep the scene size, and successes grow by no more than `LCP_count` |
| FloeContactModel.NewDefault | src/floe/collision/floe_contact.hpp:30 | The default record has no points, indices 0 and 0, and a new flag set to true |
| FloeContactModel.NewContact | src/floe/collision/floe_contact.hpp:31-32 | A record built from points keeps them and its indices, with a new flag set to true |
| FloeContactModel.MarkSolved | src/floe/collision/floe_contact.hpp:35 | Marking writes the shared flag and nothing else |
| FloeContactModel.MarkSolvedDefault | src/floe/collision/floe_contact.hpp:35 | Marking with the default argument sets the flag to true |
| FloeContactModel.FreshContactIsSolved | src/floe/collision/floe_contact.hpp:31-36 | A record built from points reports solved and keeps its points and indices |
| FloeContactModel.DefaultContactIsSolved | src/floe/collision/floe_contact.hpp:30-38 | A default record reports solved and has indices 0 and 0 |
| FloeContactModel.IndependentFlags | src/floe/collision/floe_contact.hpp:30-43 | Marking one of two independently built records leaves the other solved |
| FloeContactModel.MarkSeenThrough | src/floe/collision/floe_contact.hpp:33-43 | Marking a record with `b` is seen through any record holding the same flag, and a record with a flag of its own keeps its value |
| FloeContactModel.CopiesShareFlag | src/floe/collision/floe_contact.hpp:33-43 | Marking a copy with `b` makes the original and every other copy report `b`; points and indices survive copying and marking |
| FloeContactModel.RemarkDefault | src/floe/collision/floe_contact.hpp:35-36 | After marking false the record reports unsolved, and marking with the default argument makes it solved again |
| Hdf5Output.FrameRow | src/floe/io/hdf5_manager.hpp:122-125 | A frame row has 6 numbers, and reading it back gives the state written |
| Hdf5Output.RowRoundTrip | src/floe/io/hdf5_manager.hpp:434-437 | Reading a 6-number row as a state and writing it back gives the row: the saved and restored layouts agree |
| Hdf5Output.WriteSeries | src/floe/io/hdf5_manager.hpp:211-235 | Extending a series to cover offset plus chunk and writing the chunk there puts the chunk at the offset and keeps every other stored entry |
| Hdf5Output.WriteAtEndAppends | src/floe/io/hdf5_manager.hpp:229-235 | Writing at the current extent appends the chunk |
| Hdf5Output.FrameRows | src/floe/io/hdf5_manager.hpp:118-128 | One step's frame holds one row per floe, the layout of that floe's state |
| Hdf5Output.WriteChunk | src/floe/io/hdf5_manager.hpp:145-166 | A flush leaves the file open, the three buffers empty, and both counters unchanged |
| Hdf5Output.WriteChunkAppends | src/floe/io/hdf5_manager.hpp:195-354 | On a writer between calls, a flush appends the buffered times, frames and outlines of each floe at the end of the stored series |
| Hdf5Output.Buffer | src/floe/io/hdf5_manager.hpp:84-134 | Buffering a step adds one to both counters, leaves the file alone, and appends the step's time, frame and outlines to everything saved |
| Hdf5Output.Flush | src/floe/io/hdf5_manager.hpp:136-140 | Flushing restarts the chunk and loses nothing: everything saved is the same before and after |
| Hdf5Output.SaveStep | src/floe/io/hdf5_manager.hpp:84-141 | Each step adds exactly one to the step count and keeps the writer's shape, with the chunk counter the step count modulo 100. The step's time, frame and outlines are appended to everything saved |
| Hdf5Output.ValidHoldsHundreds | src/floe/io/hdf5_manager.hpp:133-140 | Between calls the chunk is empty exactly at multiples of 100, the file holds the whole hundreds of steps saved, and the buffers hold the rest |
| Hdf5Output.CloseWritesEverything | src/floe/io/hdf5_manager.hpp:50-53 | After the destructor the file holds exactly every time, frame and outline saved, in order |
| Hdf5Output.SaveRun | src/floe/io/hdf5_manager.hpp:44-141 | A fresh manager that saves the steps in order keeps its shape, counts each step once, and has saved exactly the steps' times and frames, in order |
| Hdf5Output.StoredRun | src/floe/io/hdf5_manager.hpp:44-56 | A run saved from a fresh manager and then destroyed leaves in the file every time and frame saved, in order |
| Hdf5Output.LatestBefore | src/floe/io/hdf5_manager.hpp:390-393 | The index found has every time up to it strictly before the query and the next time at or after it |
| Hdf5Output.LatestBeforeIsLast | src/floe/io/hdf5_manager.hpp:390-393 | On sorted times, no later index is before the query: the index is the last one strictly before it |
| Hdf5Output.Restore | src/floe/io/hdf5_manager.hpp:431-439 | Every floe takes the state of its row and keeps its impulse |
| Hdf5Output.RecoverStates | src/floe/io/hdf5_manager.hpp:390-441 | Returns the time at the last index strictly before the query and the floes restored from the frame at that index |
| Hdf5Output.RestoreStoredStep | src/floe/io/hdf5_manager.hpp:431-439 | Restoring from the frame stored for a step gives back the states saved at that step |
| Hdf5Output.RecoverSavedRun | src/floe/io/hdf5_manager.hpp:390-441 | Round trip: a run saved and closed, recovered at a query after its first time and not after every stored time, gives back the time and floe states of the step just before the first one at or after the query; every step up to it is before the query (on sorted times, the last step strictly before it, by `Hdf5Output.LatestBeforeIsLast`) |
| Plotter.GetTrunks | plot/plotter.py:393-403 | `min(cpu, max(nb_steps / 5, 1))` ranges, contiguous from 0 to `nb_steps`, of size `nb_steps / count` plus one for the first `nb_steps % count`, so sizes never increase and differ by at most one |
| Plotter.MaxOf | plot/plotter.py:376 | The largest entry bounds every entry and is one of them |
| Plotter.LagDiff | plot/plotter.py:371-372 | Entry `k` is floe `k`'s impulse at step `t` minus its impulse at step `max(t - n, 0)` |
| Plotter.LastGood | plot/plotter.py:375-377 | The latest step at or before `i` whose lagged impulses are not an outlier; every step after it up to `i` is one |
| Plotter.FirstStepNotOutlier | plot/plotter.py:372 | Step 0 is compared with itself, so its lagged impulses are all zero and never an outlier |
| Plotter.ReplaceOutliers | plot/plotter.py:375-377 | Each step ends up with what the reference `Smoothed` gives: its own vector, or for an outlier step the value left at the step before |
| Plotter.SmoothedIsLastGood | plot/plotter.py:375-377 | What the replacement leaves at a step is the lagged difference of the latest non-outlier step at or before it |
| Plotter.CalcImpulses | plot/plotter.py:369-378 | One entry per step, entry 0 all zeros, no entry an outlier, and each entry the lagged difference of the latest non-outlier step at or before it |
| PackCreator.DatasetSlice | pack_creator/pack_creator.py:14-25 | The record has 9 numbers: the 6 of a frame row, a zero impulse, then the position again |
| PackCreator.StateFromRecord | pack_creator/pack_creator.py:157 | The rebuilt state takes its position from columns 7 and 8 and its orientation from column 2, with zero speed and zero rotation |
| PackCreator.RecordReadsPoseColumnsOnly | pack_creator/pack_creator.py:157 | Two records give the same state exactly when they agree on columns 2, 7 and 8 |
| PackCreator.RecordRoundTrip | pack_creator/pack_creator.py:157 | Reading a record back keeps position and orientation and resets speed and rotation to zero, so a resting state round-trips |
| PackCreator.RectangleIsCounterClockwise | pack_creator/pack_creator.py:81-84 | The rectangle outline has twice-signed-area `2 * xlen * ylen`, positive (counter-clockwise) for positive sides, and its vertices are centred on the origin |
| PackCreator.TranslateFloeGroup | pack_creator/pack_creator.py:86-89 | Every position moves by `(x, y)`, and shapes and every other state field are unchanged |
| PackCreator.TranslateInverse | pack_creator/pack_creator.py:86-89 | Translating by `(-x, -y)` undoes translating by `(x, y)` |
| PackCreator.AbsolutePoints | pack_creator/pack_creator.py:47-50 | The points are exactly the absolute vertices of the floes |
| PackCreator.BoundingBox | pack_creator/pack_creator.py:47-50 | The box bounds every point, and each of its four sides is attained by some point |
| PackCreator.GetWindow | pack_creator/pack_creator.py:46-54 | There is a window exactly when some floe has a vertex |
| PackCreator.WindowIsSquareAndCovers | pack_creator/pack_creator.py:46-54 | The window is a square centred on the middle of the bounding box and contains every absolute vertex |
| PackCreator.SampleIndices | pack_creator/pack_creator.py:113-116 | `min(nMax, len)` indices are sampled (none when that is not positive) |
| PackCreator.SampleIndicesIncreasing | pack_creator/pack_creator.py:113-116 | The sampled indices lie in `[0, len)` and strictly increase |

## Left out

- OpenMP in the older manager: the loops are modelled sequentially. The unsynchronised `LCP_count` update is a race, not behaviour.
- The HDF5 API: file creation and opening, dataspaces, hyperslabs, exception handling and the hard-coded file names. The file is three sequences, and a missing dataset is an empty series.
- `saving_contact_graph_in_hdf5` and the recording it guards in the newer manager: it writes statistics to a hard-coded path and does not affect the loop.
- Console output and the commented-out timing code.
- Lemke and lexicographic Lemke, the graph-to-LCP builder, `LCP_error`, `calcSol`, `calcEc`, `collision_subgraphs`, `active_subgraphs` and `quad_cut`: they are oracles, because their code is not part of this model. `quad_cut` is assumed to return subgraphs of the group it cuts.
- The pivoting oracles are assumed to change only the `z` of the working copy: they return a new `z` alone, so the matrix and vector stay untouched by construction.
- `mark_changed_parent`, which records on the cluster which floes a group's solve changed, is left out. `active_subgraphs` is taken to depend only on the cluster and the current floes.
- Hdf5Output.WriteChunk: each floe's outline is taken to keep its length. The code fixes the outline dataset's width from the first chunk, so a later chunk with more points would overrun it, while the model appends outlines of any length.
- `random_perturbation` and `random_real` depend on `std::rand`. The perturbation is an arbitrary noise oracle added to the non-zero entries of the working copy.
- Floating point: `real` stands for `double`, with no rounding, infinity or NaN arithmetic. A NaN is a flag the oracles report.
- Integer widths: counters are unbounded naturals. `int`, `long`, `size_t` and `hsize_t` overflow is not modelled.
- The newer solver's three failure statistics are whatever the solver oracle reports per solve. How it classifies failures is not part of this model.
- The `mark_solved` of a graph is modelled as one flag table keyed by contact identifier, standing for the flags that copies of a contact share.
- Plotting, ffmpeg, multiprocessing and the trigonometric shape transforms of `plot/plotter.py`, apart from `_get_trunks` and `calc_impulses`; `cpu_count()` is a parameter.
- The h5py, scipy and shapely I/O of `pack_creator/pack_creator.py` and the trigonometry of `circle_floe_shape`.
- The recentring of a shape on its centroid in `Floe.__init__`, which needs shapely's polygon centroid.
- PackCreator.TranslateFloeGroup: every floe is given its own position. In the code, `State`'s default `pos=[0, 0]` is one list shared by every state built without a position, as when `Floe(shape)` is called without a state; translating a group then shifts that shared list once per floe holding it.
- LcpSolver.AllAdmissible: a velocity vector shorter than the enumerated contact points fails the test. The code indexes past its end, which is undefined behaviour.
- Hdf5Output.SaveStep: writing the time into a merely reserved vector is modelled as an append.
- Hdf5Output.LatestBefore: requires the first stored time to be before the query and some stored time to reach it. The code reads `data_time[i]` before its bounds check and steps back with unsigned arithmetic, so outside these conditions it reads out of bounds or wraps around.
- Hdf5Output.RecoverStates: requires every stored frame to have a row of 6 numbers for every floe, which the file the writer produces has.
- Plotter.CalcImpulses: requires at least one floe (NumPy's `amax` of an empty array raises) and a non-negative lag `n`.
- PackCreator.StateFromRecord: leaves out the centroid recentring the floe constructor applies to the rebuilt state. The reader expects 9-column records, while the output writer modelled in `Hdf5Output` writes 6-number rows; the round trip pairs it with the 9-number input record instead.
- The managers' solvers (`Env.solve` in `LcpManager` and `LegacyManager`) are deterministic functions of the group and the floe states. The real solver perturbs with `std::rand`, so retrying an LCP on unchanged floes may succeed where it failed before. In the model such a retry gives the same outcome, so it cannot succeed.
- PackCreator.SampleIndices: models only the index formula; the subtraction of the outline's mean and the point lookup are left out. `floor(len * i / n)` on non-negative integers is integer division.
- PackCreator.GetWindow: returns `None` where Python's `max` of no vertices raises.

## Findings

| source | as written | input that shows it | evidently intended | confidence | as-written member | corrected member |
|---|---|---|---|---|---|---|
| src/floe/lcp/LCP_manager.hpp:129-136 | The pass body declares its own `int loop_nb_success`. This shadows the variable declared before the loop, so the condition `loop_nb_success != 0` always reads -1 and never stops the loop | A solver that always fails, on a cluster whose active set never empties, runs `min(60 * contacts, 1000)` passes, each counting zero successes | The comment at the declaration: stop after a pass that resolves nothing | not executed | LcpManager.ProgressGuardNeverFires | LcpManager.GuardedClusterSpec |

`LcpManager.ClusterLoop` models the loop as written, and the lemmas about it show the discrepancy. `LcpManager.ClusterLoopGuarded` is the loop with the guard live, and the corrected row's property is proved about it. `LcpManager.SolveCluster`, and through it `LcpManager.SolveClusters` and `LcpManager.SolveContacts`, run the loop as written, so an always-failing solver on a cluster that stays active gets the whole pass budget there too.

=== FILE: contact_graph.dfy ===
/**
 * The contact-graph views both collision managers work on.  A group is a
 * contact (sub)graph: its vertex `v` stands for floe `floes[v]` of the scene and
 * its edges are contacts.  The solved flag that copies of a contact share lives
 * in one table keyed by the contact's identifier, so marking a contact through
 * any view is seen through every other view of it.
 */
module ContactGraph {

  /** A graph edge: the shared-flag identifier, the two floe indices and the number of contact points. */
  datatype Contact = Contact(id: nat, n1: nat, n2: nat, points: nat)

  /** A contact (sub)graph: vertex `v` refers to floe `floes[v]`; `contacts` are its edges. */
  datatype Group = Group(floes: seq<nat>, contacts: seq<Contact>)

  /** `num_contacts`: the number of contact points over all edges. */
  function CountPoints(cs: seq<Contact>): nat
    decreases |cs|
  {
    if |cs| == 0 then 0 else CountPoints(cs[..|cs| - 1]) + cs[|cs| - 1].points
  }

  function NumContacts(g: Group): nat {
    CountPoints(g.contacts)
  }

  /**
   * The shared solved flags, by contact identifier.  `FloeContactModel` models
   * the same flag as a heap cell shared by copies of one contact record.
   */
  type Flags = map<nat, bool>

  function Ids(cs: seq<Contact>): set<nat> {
    set c | c in cs :: c.id
  }

  /** `mark_solved(graph, b)`: every edge of the graph gets flag `b`; every other flag is kept. */
  function MarkSolved(flags: Flags, cs: seq<Contact>, b: bool): (r: Flags)
    ensures r.Keys == flags.Keys + Ids(cs)
    ensures forall id :: id in Ids(cs) ==> r[id] == b
    ensures forall id :: id in flags && id !in Ids(cs) ==> r[id] == flags[id]
  {
    map id | id in flags.Keys + Ids(cs) :: if id in Ids(cs) then b else flags[id]
  }

  /** No group of `gs` has a contact with identifier `id`. */
  predicate Untouched(id: nat, gs: seq<Group>) {
    forall i :: 0 <= i < |gs| ==> id !in Ids(gs[i].contacts)
  }

  /** No contact identifier appears in two groups of `gs`. */
  predicate DisjointIds(gs: seq<Group>) {
    forall i, j :: 0 <= i < j < |gs| ==> Ids(gs[i].contacts) !! Ids(gs[j].contacts)
  }

  /** Marks every contact of every group with `b`, group after group; every other flag is kept. */
  function MarkAll(flags: Flags, gs: seq<Group>, b: bool): (r: Flags)
    ensures forall i, c :: 0 <= i < |gs| && c in gs[i].contacts ==> c.id in r && r[c.id] == b
    ensures forall id :: id in flags ==> id in r
    ensures forall id :: id in flags && Untouched(id, gs) ==> r[id] == flags[id]
    decreases |gs|
  {
    if |gs| == 0 then flags
    else
      var r := MarkAll(flags, gs[..|gs| - 1], b);
      assert forall i :: 0 <= i < |gs| - 1 ==> gs[..|gs| - 1][i] == gs[i];
      assert forall id :: Untouched(id, gs) ==> Untouched(id, gs[..|gs| - 1]);
      MarkSolved(r, gs[|gs| - 1].contacts, b)
  }

  /** Every vertex of the group refers to one of the `n` floes of the scene. */
  predicate Within(g: Group, n: nat) {
    forall v :: 0 <= v < |g.floes| ==> g.floes[v] < n
  }

  predicate AllWithin(gs: seq<Group>, n: nat) {
    forall i :: 0 <= i < |gs| ==> Within(gs[i], n)
  }

  /** No floe appears at two vertices of the group. */
  predicate Distinct(vs: seq<nat>) {
    forall i, j :: 0 <= i < j < |vs| ==> vs[i] != vs[j]
  }

  function Sum(s: seq<nat>): nat
    decreases |s|
  {
    if |s| == 0 then 0 else Sum(s[..|s| - 1]) + s[|s| - 1]
  }
}

=== FILE: floe_contact.dfy ===
/**
 * The contact record of `collision/floe_contact.hpp`: a list of contact points
 * between two floes together with a solved flag held through a shared pointer.
 * A copy of a record shares the flag of the original, so marking any copy is
 * seen through all of them, while each constructor allocates a flag of its own.
 *
 * The shared boolean is a heap object; a record is an immutable value holding a
 * reference to it, so copying a record (the defaulted copy constructor) is
 * plain value copying and keeps the reference.
 */
module FloeContactModel {

  /** The heap boolean behind `std::shared_ptr<bool>`. */
  class Flag {
    var value: bool

    constructor (b: bool)
      ensures value == b
    {
      value := b;
    }
  }

  /** A contact: its points, the shared solved flag and the two floe indices. */
  datatype FloeContact<P> = FloeContact(points: seq<P>, solved: Flag, n1: nat, n2: nat)

  /** The default constructor: no points, indices 0 and 0, a new flag set to true. */
  method NewDefault<P>() returns (c: FloeContact<P>)
    ensures c.points == [] && c.n1 == 0 && c.n2 == 0
    ensures fresh(c.solved) && c.solved.value
  {
    var f := new Flag(true);
    c := FloeContact([], f, 0, 0);
  }

  /** The constructor from a point list and two floe indices: a new flag set to true. */
  method NewContact<P>(points: seq<P>, n1: nat, n2: nat) returns (c: FloeContact<P>)
    ensures c.points == points && c.n1 == n1 && c.n2 == n2
    ensures fresh(c.solved) && c.solved.value
  {
    var f := new Flag(true);
    c := FloeContact(points, f, n1, n2);
  }

  /** `mark_solved(solved)`: writes the shared flag and nothing else. */
  method MarkSolved<P>(c: FloeContact<P>, b: bool)
    modifies c.solved
    ensures c.solved.value == b
  {
    c.solved.value := b;
  }

  /** `mark_solved()` with its default argument. */
  method MarkSolvedDefault<P>(c: FloeContact<P>)
    modifies c.solved
    ensures c.solved.value
  {
    MarkSolved(c, true);
  }

  /** `is_solved`: the current value of the shared flag. */
  function IsSolved<P>(c: FloeContact<P>): bool
    reads c.solved
  {
    c.solved.value
  }

  /** A record built from a point list reports solved, and keeps its points and indices. */
  method FreshContactIsSolved<P>(points: seq<P>, n1: nat, n2: nat) returns (solved: bool, kept: FloeContact<P>)
    ensures solved
    ensures kept.points == points && kept.n1 == n1 && kept.n2 == n2
  {
    kept := NewContact(points, n1, n2);
    solved := IsSolved(kept);
  }

  /** A default-constructed record reports solved and has indices 0 and 0. */
  method DefaultContactIsSolved<P>() returns (solved: bool, n1: nat, n2: nat)
    ensures solved && n1 == 0 && n2 == 0
  {
    var c: FloeContact<P> := NewDefault();
    solved := IsSolved(c);
    n1, n2 := c.n1, c.n2;
  }

  /**
   * Marking one of two independently constructed records leaves the other
   * solved: each constructor allocates its own flag.
   */
  method IndependentFlags<P>(points: seq<P>, b: bool) returns (first: bool, second: bool)
    ensures first == b && second
  {
    var c := NewContact(points, 0, 1);
    var d := NewContact(points, 0, 1);
    MarkSolved(c, b);
    first := IsSolved(c);
    second := IsSolved(d);
  }

  /**
   * Marking a copy is seen through the original and every other copy, and the
   * points and indices of the copies are unchanged by the marking.
   */
  method CopiesShareFlag<P>(points: seq<P>, n1: nat, n2: nat, b: bool)
    returns (original: bool, other: bool, copy: FloeContact<P>)
    ensures original == b && other == b
    ensures copy.points == points && copy.n1 == n1 && copy.n2 == n2
  {
    var c := NewContact(points, n1, n2);
    copy := c;
    var another := copy;
    MarkSolved(copy, b);
    original := IsSolved(c);
    other := IsSolved(another);
  }

  /**
   * Marking a record is seen through any other record exactly when the two hold
   * the same flag; a record with a flag of its own keeps its value.
   */
  method MarkSeenThrough<P>(c: FloeContact<P>, d: FloeContact<P>, b: bool) returns (seen: bool)
    modifies c.solved
    ensures d.solved == c.solved ==> seen == b
    ensures d.solved != c.solved ==> seen == old(d.solved.value)
  {
    MarkSolved(c, b);
    seen := IsSolved(d);
  }

  /** Marking with the default argument after a `false` restores `is_solved`. */
  method RemarkDefault<P>(points: seq<P>) returns (after: bool, between: bool)
    ensures !between && after
  {
    var c := NewContact(points, 0, 0);
    MarkSolved(c, false);
    between := IsSolved(c);
    MarkSolvedDefault(c);
    after := IsSolved(c);
  }
}

=== FILE: floes.dfy ===
/**
 * Kinematic records of a floe, shared by the collision managers, the HDF5
 * writer and the pack creator.
 */
module Floes {

  /** A 2D point or vector. */
  datatype Vec = Vec(x: real, y: real)

  /** The kinematic state of a floe: position, orientation, linear and angular velocity. */
  datatype FloeState = FloeState(pos: Vec, theta: real, speed: Vec, rot: real)

  /** A floe as seen by the collision managers: its state and its accumulated impulse. */
  datatype Floe = Floe(state: FloeState, impulse: real)

  function Add(a: Vec, b: Vec): Vec {
    Vec(a.x + b.x, a.y + b.y)
  }

  function Min(a: int, b: int): int {
    if a <= b then a else b
  }

  function Max(a: int, b: int): int {
    if a >= b then a else b
  }
}

=== FILE: hdf5_output.dfy ===
/**
 * The output buffering and recovery logic of `io/hdf5_manager.hpp`.  Each saved
 * step appends one outline per floe, one frame of 6 numbers per floe and one
 * time to in-memory buffers; every 100 steps the buffers are flushed, each
 * series being extended along its leading dimension and the buffered steps
 * written into the extension; the destructor flushes a partial chunk.
 * Recovery finds the last stored time strictly before a query and restores
 * the floe states from the frame stored at that index.
 *
 * The file is three series held as sequences (the per-floe outline datasets,
 * the frame dataset and the time dataset); a dataset not created yet is an
 * empty series.
 */
module Hdf5Output {
  import opened Floes

  /** `m_flush_max_step`: the number of steps buffered before a flush. */
  const FlushMaxStep: nat := 100

  // ---------------------------------------------------------------------------
  // Frame layout

  /** A frame row: position x and y, orientation, speed x and y, rotation. */
  function FrameRow(s: FloeState): (row: seq<real>)
    ensures |row| == 6
    ensures StateOfRow(row) == s
  {
    [s.pos.x, s.pos.y, s.theta, s.speed.x, s.speed.y, s.rot]
  }

  /** The state `recover_states` rebuilds from a frame row. */
  function StateOfRow(row: seq<real>): FloeState
    requires |row| >= 6
  {
    FloeState(Vec(row[0], row[1]), row[2], Vec(row[3], row[4]), row[5])
  }

  /** Writing a state into a row and reading it back are inverse both ways on rows of 6. */
  lemma RowRoundTrip(row: seq<real>)
    requires |row| == 6
    ensures FrameRow(StateOfRow(row)) == row
  {
  }

  // ---------------------------------------------------------------------------
  // The writer

  /** What one `save_step` receives for one floe: its outer outline and its state. */
  datatype FloeView = FloeView(outline: seq<Vec>, state: FloeState)

  /** One step of the simulation as handed to `save_step`. */
  datatype Step = Step(time: real, floes: seq<FloeView>)

  /**
   * The manager: step counters, the three buffers (outlines per floe then per
   * step, frames per step then per floe, times per step), whether the output
   * file is open, and the three stored series.
   */
  datatype Writer = Writer(
    stepCount: nat, chunkStepCount: nat,
    bufOutlines: seq<seq<seq<Vec>>>, bufFrames: seq<seq<seq<real>>>, bufTime: seq<real>,
    fileOpen: bool,
    outlines: seq<seq<seq<Vec>>>, frames: seq<seq<seq<real>>>, times: seq<real>)

  /** The default constructor: nothing saved, no file. */
  const Init: Writer := Writer(0, 0, [], [], [], false, [], [], [])

  /**
   * Extends a series to cover `offset + |chunk|` entries (never shrinking it;
   * entries a new dataset starts with are `fill`) and writes `chunk` at `offset`.
   */
  function WriteSeries<T>(series: seq<T>, fill: T, offset: nat, chunk: seq<T>): (r: seq<T>)
    ensures |r| == Max(|series|, offset + |chunk|)
    ensures forall i :: 0 <= i < |chunk| ==> r[offset + i] == chunk[i]
    ensures forall i :: 0 <= i < |series| && !(offset <= i < offset + |chunk|) ==> r[i] == series[i]
  {
    seq(Max(|series|, offset + |chunk|),
        i requires 0 <= i < Max(|series|, offset + |chunk|) =>
          if offset <= i < offset + |chunk| then chunk[i - offset]
          else if i < |series| then series[i]
          else fill)
  }

  /** Writing at the current extent appends. */
  lemma WriteAtEndAppends<T>(series: seq<T>, fill: T, chunk: seq<T>)
    ensures WriteSeries(series, fill, |series|, chunk) == series + chunk
  {
  }

  function FrameRows(fs: seq<FloeView>): (rows: seq<seq<real>>)
    ensures |rows| == |fs|
    ensures forall k :: 0 <= k < |fs| ==> rows[k] == FrameRow(fs[k].state)
  {
    seq(|fs|, k requires 0 <= k < |fs| => FrameRow(fs[k].state))
  }

  /**
   * The writer's shape between calls, for `n` floes per step: the chunk counter
   * is the step count modulo 100, the buffers hold exactly the steps of the
   * current chunk, and the stored series hold exactly the steps before it.
   */
  predicate Valid(w: Writer, n: nat) {
    && w.chunkStepCount == w.stepCount % FlushMaxStep
    && Shaped(w, n)
  }

  /** The shape of `Valid` without the modulo: buffers hold the current chunk, the series the steps before it. */
  predicate Shaped(w: Writer, n: nat) {
    && w.chunkStepCount <= w.stepCount
    && |w.bufTime| == w.chunkStepCount && |w.bufFrames| == w.chunkStepCount
    && (w.chunkStepCount == 0 ==> w.bufOutlines == [])
    && (w.chunkStepCount > 0 ==> |w.bufOutlines| == n)
    && (forall i :: 0 <= i < |w.bufOutlines| ==> |w.bufOutlines[i]| == w.chunkStepCount)
    && |w.times| == w.stepCount - w.chunkStepCount && |w.frames| == w.stepCount - w.chunkStepCount
    && (w.stepCount - w.chunkStepCount == 0 ==> w.outlines == [])
    && (w.stepCount - w.chunkStepCount > 0 ==> |w.outlines| == n && w.fileOpen)
    && (forall i :: 0 <= i < |w.outlines| ==> |w.outlines[i]| == w.stepCount - w.chunkStepCount)
  }

  /** Every time saved so far, stored or buffered, in order. */
  function TimesOf(w: Writer): seq<real> {
    w.times + w.bufTime
  }

  /** Every frame saved so far, stored or buffered, in order. */
  function FramesOf(w: Writer): seq<seq<seq<real>>> {
    w.frames + w.bufFrames
  }

  /** Every outline of floe `i` saved so far, stored or buffered, in order. */
  function OutlinesOf(w: Writer, i: nat): seq<seq<Vec>> {
    (if i < |w.outlines| then w.outlines[i] else []) + (if i < |w.bufOutlines| then w.bufOutlines[i] else [])
  }

  /**
   * `write_chunk`: opens (truncating) the output file on first use, then writes
   * the buffered outlines, frames and times at offset
   * `m_step_count - m_chunk_step_count`, and clears the three buffers.
   */
  function WriteChunk(w: Writer): (r: Writer)
    requires w.chunkStepCount <= w.stepCount
    requires |w.bufTime| >= w.chunkStepCount && |w.bufFrames| >= w.chunkStepCount
    ensures r.fileOpen && r.bufOutlines == [] && r.bufFrames == [] && r.bufTime == []
    ensures r.stepCount == w.stepCount && r.chunkStepCount == w.chunkStepCount
  {
    var offset := w.stepCount - w.chunkStepCount;
    Writer(w.stepCount, w.chunkStepCount, [], [], [], true,
           WriteOutlines(if w.fileOpen then w.outlines else [], w.bufOutlines, offset),
           WriteSeries(if w.fileOpen then w.frames else [], [], offset, w.bufFrames[..w.chunkStepCount]),
           WriteSeries(if w.fileOpen then w.times else [], 0.0, offset, w.bufTime[..w.chunkStepCount]))
  }

  /**
   * `write_boundaries`: the outline series of floe `i` gets the buffered
   * outlines of floe `i` written at `offset`; a floe with nothing buffered
   * keeps its series.
   */
  function WriteOutlines(outlines: seq<seq<seq<Vec>>>, buf: seq<seq<seq<Vec>>>, offset: nat): (r: seq<seq<seq<Vec>>>)
    ensures |r| == Max(|outlines|, |buf|)
    ensures forall i :: 0 <= i < |buf| ==>
      r[i] == WriteSeries(if i < |outlines| then outlines[i] else [], [], offset, buf[i])
    ensures forall i :: |buf| <= i < |outlines| ==> r[i] == outlines[i]
  {
    seq(Max(|outlines|, |buf|),
        i requires 0 <= i < Max(|outlines|, |buf|) =>
          if i < |buf| then WriteSeries(if i < |outlines| then outlines[i] else [], [], offset, buf[i])
          else outlines[i])
  }

  /** On a writer in its between-calls shape, a flush moves the buffered steps to the end of the stored series. */
  lemma WriteChunkAppends(w: Writer, n: nat)
    requires Shaped(w, n) && w.chunkStepCount > 0
    ensures var r := WriteChunk(w);
      && r.times == TimesOf(w) && r.frames == FramesOf(w)
      && |r.outlines| == n
      && (forall i :: 0 <= i < n ==> r.outlines[i] == OutlinesOf(w, i))
  {
    WriteChunkTimes(w, n);
    WriteChunkFrames(w, n);
    WriteChunkOutlines(w, n);
  }

  lemma WriteChunkTimes(w: Writer, n: nat)
    requires Shaped(w, n) && w.chunkStepCount > 0
    ensures WriteChunk(w).times == TimesOf(w)
  {
    assert (if w.fileOpen then w.times else []) == w.times;
    assert w.bufTime[..w.chunkStepCount] == w.bufTime;
    WriteAtEndAppends(w.times, 0.0, w.bufTime);
  }

  lemma WriteChunkFrames(w: Writer, n: nat)
    requires Shaped(w, n) && w.chunkStepCount > 0
    ensures WriteChunk(w).frames == FramesOf(w)
  {
    assert (if w.fileOpen then w.frames else []) == w.frames;
    assert w.bufFrames[..w.chunkStepCount] == w.bufFrames;
    WriteAtEndAppends(w.frames, [], w.bufFrames);
  }

  lemma WriteChunkOutlines(w: Writer, n: nat)
    requires Shaped(w, n) && w.chunkStepCount > 0
    ensures |WriteChunk(w).outlines| == n
    ensures forall i :: 0 <= i < n ==> WriteChunk(w).outlines[i] == OutlinesOf(w, i)
  {
    var stored := if w.fileOpen then w.outlines else [];
    assert stored == w.outlines;
    var r := WriteOutlines(stored, w.bufOutlines, w.stepCount - w.chunkStepCount);
    assert WriteChunk(w).outlines == r;
    forall i | 0 <= i < n
      ensures r[i] == OutlinesOf(w, i)
    {
      var old_ := if i < |w.outlines| then w.outlines[i] else [];
      WriteAtEndAppends(old_, [], w.bufOutlines[i]);
    }
  }

  /** The buffering half of `save_step`: one more step in each buffer and in both counters. */
  function Buffer(w: Writer, n: nat, s: Step): (b: Writer)
    requires Shaped(w, n) && |s.floes| == n
    ensures Shaped(b, n)
    ensures b.stepCount == w.stepCount + 1 && b.chunkStepCount == w.chunkStepCount + 1
    ensures b.times == w.times && b.frames == w.frames && b.outlines == w.outlines && b.fileOpen == w.fileOpen
    ensures TimesOf(b) == TimesOf(w) + [s.time]
    ensures FramesOf(b) == FramesOf(w) + [FrameRows(s.floes)]
    ensures forall i :: 0 <= i < n ==> OutlinesOf(b, i) == OutlinesOf(w, i) + [s.floes[i].outline]
  {
    var sized := if |w.bufOutlines| == 0 then seq(n, _ => []) else w.bufOutlines;
    var outlines := seq(n, i requires 0 <= i < n => sized[i] + [s.floes[i].outline]);
    w.(bufOutlines := outlines, bufFrames := w.bufFrames + [FrameRows(s.floes)],
       bufTime := w.bufTime + [s.time],
       stepCount := w.stepCount + 1, chunkStepCount := w.chunkStepCount + 1)
  }

  /** The flushing half of `save_step`: write the chunk, then restart it. */
  function Flush(b: Writer, n: nat): (r: Writer)
    requires Shaped(b, n) && b.chunkStepCount > 0
    ensures r.stepCount == b.stepCount && r.chunkStepCount == 0
    ensures Shaped(r, n)
    ensures TimesOf(r) == TimesOf(b) && FramesOf(r) == FramesOf(b)
    ensures forall i :: 0 <= i < n ==> OutlinesOf(r, i) == OutlinesOf(b, i)
  {
    WriteChunkAppends(b, n);
    WriteChunk(b).(chunkStepCount := 0)
  }

  /**
   * `save_step`: buffers the step's outlines (sizing the outline buffer to the
   * floe count when empty), frame rows and time, counts the step, and flushes
   * and restarts the chunk when the step count reaches a multiple of 100.
   */
  method SaveStep(w: Writer, n: nat, s: Step) returns (r: Writer)
    requires Valid(w, n) && |s.floes| == n
    ensures Valid(r, n)
    ensures r.stepCount == w.stepCount + 1
    ensures TimesOf(r) == TimesOf(w) + [s.time]
    ensures FramesOf(r) == FramesOf(w) + [FrameRows(s.floes)]
    ensures forall i :: 0 <= i < n ==> OutlinesOf(r, i) == OutlinesOf(w, i) + [s.floes[i].outline]
  {
    var b := Buffer(w, n, s);
    NextChunkCount(w.stepCount);
    if b.stepCount % FlushMaxStep == 0 {
      r := Flush(b, n);
    } else {
      r := b;
    }
  }

  /** The chunk counter after one more step: one more, or 0 at a multiple of 100. */
  lemma NextChunkCount(k: nat)
    ensures (k + 1) % FlushMaxStep == if k % FlushMaxStep + 1 == FlushMaxStep then 0 else k % FlushMaxStep + 1
  {
  }

  /**
   * Between calls the chunk is empty exactly at multiples of 100, the file
   * holds the whole hundreds of steps saved, and the buffers the rest.
   */
  lemma ValidHoldsHundreds(w: Writer, n: nat)
    requires Valid(w, n)
    ensures w.chunkStepCount == 0 <==> w.stepCount % FlushMaxStep == 0
    ensures |w.times| == (w.stepCount / FlushMaxStep) * FlushMaxStep
    ensures |w.bufTime| == w.stepCount % FlushMaxStep
  {
    assert w.stepCount == (w.stepCount / FlushMaxStep) * FlushMaxStep + w.stepCount % FlushMaxStep;
  }

  /** The destructor: flushes a partial chunk, then the file holds every saved step. */
  function Close(w: Writer): (r: Writer)
    requires w.chunkStepCount <= w.stepCount
    requires |w.bufTime| >= w.chunkStepCount && |w.bufFrames| >= w.chunkStepCount
  {
    if w.chunkStepCount != 0 then WriteChunk(w) else w
  }

  /** After the destructor, the stored series are exactly everything saved, in order. */
  lemma CloseWritesEverything(w: Writer, n: nat)
    requires Valid(w, n)
    ensures Close(w).times == TimesOf(w) && Close(w).frames == FramesOf(w)
    ensures w.stepCount > 0 ==> forall i :: 0 <= i < n ==> Close(w).outlines[i] == OutlinesOf(w, i)
  {
    CloseKeepsSeries(w, n);
    if w.chunkStepCount != 0 {
      WriteChunkOutlines(w, n);
    }
  }

  /** The time and frame halves of `CloseWritesEverything`. */
  lemma CloseKeepsSeries(w: Writer, n: nat)
    requires Valid(w, n)
    ensures Close(w).times == TimesOf(w) && Close(w).frames == FramesOf(w)
  {
    if w.chunkStepCount != 0 {
      WriteChunkTimes(w, n);
      WriteChunkFrames(w, n);
    } else {
      assert TimesOf(w) == w.times;
      assert FramesOf(w) == w.frames;
    }
  }

  function TimeSeries(steps: seq<Step>): (ts: seq<real>)
    ensures |ts| == |steps| && forall k :: 0 <= k < |steps| ==> ts[k] == steps[k].time
  {
    seq(|steps|, k requires 0 <= k < |steps| => steps[k].time)
  }

  function FrameSeries(steps: seq<Step>): (fs: seq<seq<seq<real>>>)
    ensures |fs| == |steps| && forall k :: 0 <= k < |steps| ==> fs[k] == FrameRows(steps[k].floes)
  {
    seq(|steps|, k requires 0 <= k < |steps| => FrameRows(steps[k].floes))
  }

  /** A fresh manager has nothing saved and the shape of a writer between calls. */
  lemma InitIsEmpty(n: nat)
    ensures Valid(Init, n) && TimesOf(Init) == [] && FramesOf(Init) == []
  {
  }

  /**
   * The steps of a run saved in order by a fresh manager: the writer keeps
   * its shape, counts each step once, and has saved exactly the steps'
   * times and frames.
   */
  method SaveRun(n: nat, steps: seq<Step>) returns (saved: Writer)
    requires forall k :: 0 <= k < |steps| ==> |steps[k].floes| == n
    ensures Valid(saved, n) && saved.stepCount == |steps|
    ensures TimesOf(saved) == TimeSeries(steps) && FramesOf(saved) == FrameSeries(steps)
  {
    saved := Init;
    InitIsEmpty(n);
    for k := 0 to |steps|
      invariant Valid(saved, n) && saved.stepCount == k
      invariant TimesOf(saved) == TimeSeries(steps)[..k]
      invariant FramesOf(saved) == FrameSeries(steps)[..k]
    {
      SeriesPrefixStep(steps, k);
      saved := SaveStep(saved, n, steps[k]);
    }
    assert TimeSeries(steps)[..|steps|] == TimeSeries(steps);
    assert FrameSeries(steps)[..|steps|] == FrameSeries(steps);
  }

  lemma SeriesPrefixStep(steps: seq<Step>, k: nat)
    requires k < |steps|
    ensures TimeSeries(steps)[..k + 1] == TimeSeries(steps)[..k] + [steps[k].time]
    ensures FrameSeries(steps)[..k + 1] == FrameSeries(steps)[..k] + [FrameRows(steps[k].floes)]
  {
  }

  /**
   * A run then the destructor: the file holds every time and every frame
   * saved, in the order saved.
   */
  method StoredRun(n: nat, steps: seq<Step>) returns (w: Writer)
    requires forall k :: 0 <= k < |steps| ==> |steps[k].floes| == n
    ensures w.times == TimeSeries(steps) && w.frames == FrameSeries(steps)
  {
    var saved := SaveRun(n, steps);
    CloseKeepsSeries(saved, n);
    w := Close(saved);
  }

  // ---------------------------------------------------------------------------
  // Recovery

  /**
   * The index search of `recover_states`: advance while the time is before the
   * query, then step back.  The code reads the time before testing the bound
   * and steps back with unsigned arithmetic, so the first stored time must be
   * before the query and some stored time must reach it.
   */
  method LatestBefore(times: seq<real>, time: real) returns (i: nat)
    requires |times| > 0 && times[0] < time
    requires exists j :: 0 <= j < |times| && times[j] >= time
    ensures i + 1 < |times|
    ensures forall k :: 0 <= k <= i ==> times[k] < time
    ensures times[i + 1] >= time
  {
    var j: nat := 0;
    while times[j] < time && j < |times|
      invariant j < |times|
      invariant forall k :: 0 <= k < j ==> times[k] < time
      decreases |times| - j
    {
      j := j + 1;
      if j == |times| {
        assert forall k :: 0 <= k < |times| ==> times[k] < time;
        assert false;
      }
    }
    i := j - 1;
  }

  predicate Sorted(times: seq<real>) {
    forall a, b :: 0 <= a < b < |times| ==> times[a] <= times[b]
  }

  /** On sorted times, the index found is the last one strictly before the query. */
  lemma LatestBeforeIsLast(times: seq<real>, time: real, i: nat)
    requires Sorted(times)
    requires i + 1 < |times| && times[i] < time && times[i + 1] >= time
    ensures forall k :: i < k < |times| ==> times[k] >= time
  {
    forall k | i < k < |times|
      ensures times[k] >= time
    {
      assert times[i + 1] <= times[k];
    }
  }

  /** `set_state` for every floe from its row of the frame: the impulse is not part of the frame. */
  function Restore(floes: seq<Floe>, rows: seq<seq<real>>): (r: seq<Floe>)
    requires |rows| >= |floes|
    requires forall k :: 0 <= k < |rows| ==> |rows[k]| >= 6
    ensures |r| == |floes|
    ensures forall k :: 0 <= k < |floes| ==> r[k].state == StateOfRow(rows[k]) && r[k].impulse == floes[k].impulse
  {
    seq(|floes|, k requires 0 <= k < |floes| => floes[k].(state := StateOfRow(rows[k])))
  }

  /**
   * `recover_states`: the time of the last stored step strictly before the
   * query, and the floes with the states of that step.
   */
  method RecoverStates(times: seq<real>, frames: seq<seq<seq<real>>>, time: real, floes: seq<Floe>)
    returns (t: real, index: nat, r: seq<Floe>)
    requires |times| > 0 && times[0] < time
    requires exists j :: 0 <= j < |times| && times[j] >= time
    requires |frames| == |times|
    requires forall s :: 0 <= s < |frames| ==> |frames[s]| >= |floes|
    requires forall s, k :: 0 <= s < |frames| && 0 <= k < |frames[s]| ==> |frames[s][k]| >= 6
    ensures index + 1 < |times| && t == times[index]
    ensures t < time && times[index + 1] >= time
    ensures forall k :: 0 <= k <= index ==> times[k] < time
    ensures r == Restore(floes, frames[index])
  {
    index := LatestBefore(times, time);
    t := times[index];
    r := Restore(floes, frames[index]);
  }

  lemma StoredFramesShape(steps: seq<Step>, n: nat)
    requires forall k :: 0 <= k < |steps| ==> |steps[k].floes| == n
    ensures var frames := FrameSeries(steps);
      && (forall s :: 0 <= s < |frames| ==> |frames[s]| == n)
      && (forall s, k :: 0 <= s < |frames| && 0 <= k < |frames[s]| ==> |frames[s][k]| == 6)
  {
  }

  /** Restoring from the frame stored for a step gives back the states saved at that step. */
  lemma RestoreStoredStep(steps: seq<Step>, floes: seq<Floe>, index: nat)
    requires index < |steps| && |floes| <= |steps[index].floes|
    ensures var r := Restore(floes, FrameSeries(steps)[index]);
      forall k :: 0 <= k < |floes| ==> r[k].state == steps[index].floes[k].state
  {
    var rows := FrameSeries(steps)[index];
    assert rows == FrameRows(steps[index].floes);
  }

  /**
   * The round trip: a run saved from a fresh manager and closed, recovered at
   * a query after its first step and not after its last, gives back the time
   * and the floe states saved at the last step strictly before the query.
   */
  method RecoverSavedRun(n: nat, steps: seq<Step>, floes: seq<Floe>, time: real)
    returns (t: real, index: nat, r: seq<Floe>)
    requires forall k :: 0 <= k < |steps| ==> |steps[k].floes| == n
    requires |floes| == n
    requires |steps| > 0 && steps[0].time < time
    requires exists j :: 0 <= j < |steps| && steps[j].time >= time
    ensures index + 1 < |steps| && t == steps[index].time && t < time
    ensures forall k :: 0 <= k <= index ==> steps[k].time < time
    ensures steps[index + 1].time >= time
    ensures |r| == n
    ensures forall k :: 0 <= k < n ==> r[k].state == steps[index].floes[k].state && r[k].impulse == floes[k].impulse
  {
    var stored := StoredRun(n, steps);
    var j :| 0 <= j < |steps| && steps[j].time >= time;
    assert stored.times[j] >= time;
    StoredFramesShape(steps, n);
    t, index, r := RecoverStates(stored.times, stored.frames, time, floes);
    RestoreStoredStep(steps, floes, index);
  }
}

=== FILE: lcp_manager.dfy ===
/**
 * The collision manager of `lcp/LCP_manager.hpp`: for each cluster of the
 * contact graph, a bounded loop that solves every active contact group
 * (splitting those with more than 50 contact points), applies each solution to
 * the floes, and recomputes the active groups until none is left or the pass
 * budget is spent; then the totals kept across calls.
 *
 * The active-subgraph extraction, the LCP solver and the `quad_cut` splitter are
 * oracles: function-typed fields of `Env`.  Every loop is sequential.
 */
module LcpManager {
  import opened Floes
  import opened ContactGraph

  /** Groups with more contact points than this are split by `quad_cut`. */
  const SplitThreshold: nat := 50

  /** Passes allowed per contact point of a cluster, and the ceiling on passes. */
  const PassesPerContact: nat := 60
  const PassCeiling: nat := 1000

  /**
   * The `loop_nb_success` that the loop condition reads: it is declared before
   * the loop with value -1, and the pass body declares a second variable of the
   * same name, so nothing ever assigns this one.
   */
  const OuterLoopNbSuccess: int := -1

  /** An LCP solution: 3 velocity components per vertex and one impulse per vertex. */
  datatype Solution = Solution(velocity: seq<real>, impulse: seq<real>)

  /** The three failure statistics: compression failures, decompression failures, energy-keeping solves. */
  datatype Stats = Stats(compression: nat, decompression: nat, energyKept: nat)

  /** What the solver reports for one group: success, the solution, the statistics it adds. */
  datatype Attempt = Attempt(success: bool, sol: Solution, failed: Stats)

  /** The collaborators: `active_subgraphs`, the LCP solver and `quad_cut`. */
  datatype Env = Env(
    active: (Group, seq<Floe>) -> seq<Group>,
    solve: (Group, seq<Floe>) -> Attempt,
    quadCut: Group -> seq<Group>)

  /** The floes of the scene and the shared solved flags of its contacts. */
  datatype Scene = Scene(floes: seq<Floe>, solved: Flags)

  /** The counters of one `solve_contacts` call: `LCP_count`, `nb_success`, `nb_lcp_failed_stats`. */
  datatype Tally = Tally(lcpCount: nat, successes: nat, failed: Stats)

  function AddStats(a: Stats, b: Stats): Stats {
    Stats(a.compression + b.compression, a.decompression + b.decompression, a.energyKept + b.energyKept)
  }

  /** The solution covers every vertex of the group. */
  predicate Fits(g: Group, sol: Solution) {
    |sol.velocity| >= 3 * |g.floes| && |sol.impulse| >= |g.floes|
  }

  /**
   * The collaborators keep to the shapes the code relies on: a solution has a
   * block per vertex, every group handed out refers to floes of the scene, and
   * the pieces `quad_cut` cuts a group into are subgraphs of it.
   */
  ghost predicate Sound(env: Env, n: nat) {
    && (forall g: Group, fs: seq<Floe> :: Fits(g, env.solve(g, fs).sol))
    && (forall c: Group, fs: seq<Floe> :: AllWithin(env.active(c, fs), n))
    && (forall g: Group :: Within(g, n) ==> AllWithin(env.quadCut(g), n))
    && (forall g: Group, i :: 0 <= i < |env.quadCut(g)| ==> Ids(env.quadCut(g)[i].contacts) <= Ids(g.contacts))
  }

  // ---------------------------------------------------------------------------
  // update_floes_state

  /** Vertex `v`'s share of the solution applied to its floe. */
  function SetBlock(f: Floe, sol: Solution, v: nat): Floe
    requires 3 * v + 2 < |sol.velocity| && v < |sol.impulse|
  {
    Floe(f.state.(speed := Vec(sol.velocity[3 * v], sol.velocity[3 * v + 1]), rot := sol.velocity[3 * v + 2]),
         f.impulse + sol.impulse[v])
  }

  /**
   * `update_floes_state`: vertex by vertex, the floe of vertex `v` takes speed
   * `(Sol[0][3v], Sol[0][3v+1])` and rotation `Sol[0][3v+2]` and adds `Sol[1][v]`
   * to its impulse.  No position or orientation changes, and floes that are not
   * vertices of the group do not change at all.
   */
  function UpdateFloesState(floes: seq<Floe>, vs: seq<nat>, sol: Solution): (r: seq<Floe>)
    requires forall v :: 0 <= v < |vs| ==> vs[v] < |floes|
    requires |sol.velocity| >= 3 * |vs| && |sol.impulse| >= |vs|
    ensures |r| == |floes|
    ensures forall f :: 0 <= f < |floes| ==>
      r[f].state.pos == floes[f].state.pos && r[f].state.theta == floes[f].state.theta
    ensures forall f :: 0 <= f < |floes| && f !in vs ==> r[f] == floes[f]
    decreases |vs|
  {
    if |vs| == 0 then floes
    else
      var v := |vs| - 1;
      var prev := UpdateFloesState(floes, vs[..v], sol);
      assert forall f :: f !in vs ==> f !in vs[..v];
      prev[vs[v] := SetBlock(prev[vs[v]], sol, v)]
  }

  /** When the vertices name distinct floes, each of them receives exactly its own block. */
  lemma {:induction false} UpdateFloesStateEffect(floes: seq<Floe>, vs: seq<nat>, sol: Solution)
    requires forall v :: 0 <= v < |vs| ==> vs[v] < |floes|
    requires |sol.velocity| >= 3 * |vs| && |sol.impulse| >= |vs|
    requires Distinct(vs)
    ensures forall v :: 0 <= v < |vs| ==>
      UpdateFloesState(floes, vs, sol)[vs[v]] == SetBlock(floes[vs[v]], sol, v)
    decreases |vs|
  {
    if |vs| > 0 {
      var last := |vs| - 1;
      var init := vs[..last];
      UpdateFloesStateEffect(floes, init, sol);
      assert vs[last] !in init;
      forall v | 0 <= v < |vs|
        ensures UpdateFloesState(floes, vs, sol)[vs[v]] == SetBlock(floes[vs[v]], sol, v)
      {
        if v < last {
          assert init[v] == vs[v];
        }
      }
    }
  }

  // ---------------------------------------------------------------------------
  // One pass over the active groups

  /** What a stretch of solves leaves: the scene, the successes counted, the statistics added. */
  datatype PassResult = PassResult(scene: Scene, successes: nat, failed: Stats)

  /** Solve one group, mark its contacts with the outcome, count a success, apply the solution. */
  function SolveOne(env: Env, n: nat, g: Group, sc: Scene): (r: PassResult)
    requires Sound(env, n) && Within(g, n) && |sc.floes| == n
    ensures |r.scene.floes| == n
    ensures r.successes <= 1
    ensures r.successes == 1 <==> env.solve(g, sc.floes).success
    ensures forall c :: c in g.contacts ==> c.id in r.scene.solved && r.scene.solved[c.id] == env.solve(g, sc.floes).success
    ensures forall id :: id in sc.solved && id !in Ids(g.contacts) ==> id in r.scene.solved && r.scene.solved[id] == sc.solved[id]
  {
    var a := env.solve(g, sc.floes);
    assert Fits(g, a.sol);
    var flags := MarkSolved(sc.solved, g.contacts, a.success);
    var floes := UpdateFloesState(sc.floes, g.floes, a.sol);
    PassResult(Scene(floes, flags), if a.success then 1 else 0, a.failed)
  }

  /** Solves a list of groups in order, each on the scene its predecessors left. */
  function SolveEach(env: Env, n: nat, gs: seq<Group>, sc: Scene): (r: PassResult)
    requires Sound(env, n) && AllWithin(gs, n) && |sc.floes| == n
    ensures |r.scene.floes| == n
    ensures r.successes <= |gs|
    ensures forall id :: id in sc.solved && Untouched(id, gs) ==> id in r.scene.solved && r.scene.solved[id] == sc.solved[id]
    decreases |gs|
  {
    if |gs| == 0 then PassResult(sc, 0, Stats(0, 0, 0))
    else
      var first := SolveOne(env, n, gs[0], sc);
      assert forall id :: Untouched(id, gs) ==> id !in Ids(gs[0].contacts) && Untouched(id, gs[1..]);
      var rest := SolveEach(env, n, gs[1..], first.scene);
      PassResult(rest.scene, first.successes + rest.successes, AddStats(first.failed, rest.failed))
  }

  /** One active group: split by `quad_cut` when it has more than 50 contact points, solved directly otherwise. */
  function SolveActiveGroup(env: Env, n: nat, g: Group, sc: Scene): (r: PassResult)
    requires Sound(env, n) && Within(g, n) && |sc.floes| == n
    ensures |r.scene.floes| == n
    ensures NumContacts(g) <= SplitThreshold ==> r.successes <= 1
    ensures NumContacts(g) > SplitThreshold ==> r.successes <= |env.quadCut(g)|
    ensures NumContacts(g) <= SplitThreshold ==> (r.successes == 1 <==> env.solve(g, sc.floes).success)
    ensures NumContacts(g) <= SplitThreshold ==> forall c :: c in g.contacts ==>
      c.id in r.scene.solved && r.scene.solved[c.id] == env.solve(g, sc.floes).success
    ensures forall id :: id in sc.solved && id !in Ids(g.contacts) ==> id in r.scene.solved && r.scene.solved[id] == sc.solved[id]
  {
    if NumContacts(g) > SplitThreshold then
      assert forall id :: id !in Ids(g.contacts) ==> Untouched(id, env.quadCut(g));
      SolveEach(env, n, env.quadCut(g), sc)
    else SolveOne(env, n, g, sc)
  }

  /** The body of the pass loop: every active group in order. */
  function RunPass(env: Env, n: nat, gs: seq<Group>, sc: Scene): (r: PassResult)
    requires Sound(env, n) && AllWithin(gs, n) && |sc.floes| == n
    ensures |r.scene.floes| == n
    ensures forall id :: id in sc.solved && Untouched(id, gs) ==> id in r.scene.solved && r.scene.solved[id] == sc.solved[id]
    decreases |gs|
  {
    if |gs| == 0 then PassResult(sc, 0, Stats(0, 0, 0))
    else
      var first := SolveActiveGroup(env, n, gs[0], sc);
      assert forall id :: Untouched(id, gs) ==> id !in Ids(gs[0].contacts) && Untouched(id, gs[1..]);
      var rest := RunPass(env, n, gs[1..], first.scene);
      PassResult(rest.scene, first.successes + rest.successes, AddStats(first.failed, rest.failed))
  }

  /** Solving a non-empty prefix of the pieces is solving the first, then the rest of the prefix. */
  lemma PrefixScene(env: Env, n: nat, gs: seq<Group>, sc: Scene, k: nat)
    requires Sound(env, n) && AllWithin(gs, n) && |sc.floes| == n
    requires 0 < k <= |gs|
    ensures var first := SolveOne(env, n, gs[0], sc);
      SolveEach(env, n, gs[..k], sc).scene == SolveEach(env, n, gs[1..][..k - 1], first.scene).scene
  {
    assert gs[..k][0] == gs[0];
    assert gs[..k][1..] == gs[1..][..k - 1];
  }

  /**
   * When no contact belongs to two pieces, every piece's contacts end up marked
   * with that piece's own outcome, taken on the scene the pieces before it left.
   */
  lemma {:induction false} PiecesMarkedWithOwnOutcome(env: Env, n: nat, gs: seq<Group>, sc: Scene)
    requires Sound(env, n) && AllWithin(gs, n) && |sc.floes| == n
    requires DisjointIds(gs)
    ensures var r := SolveEach(env, n, gs, sc);
      forall k, c :: 0 <= k < |gs| && c in gs[k].contacts ==>
        c.id in r.scene.solved && r.scene.solved[c.id] == env.solve(gs[k], SolveEach(env, n, gs[..k], sc).scene.floes).success
    decreases |gs|
  {
    if |gs| > 0 {
      var first := SolveOne(env, n, gs[0], sc);
      var r := SolveEach(env, n, gs, sc);
      assert r.scene == SolveEach(env, n, gs[1..], first.scene).scene;
      assert DisjointIds(gs[1..]) by {
        forall i, j | 0 <= i < j < |gs| - 1
          ensures Ids(gs[1..][i].contacts) !! Ids(gs[1..][j].contacts)
        {
          assert gs[1..][i] == gs[i + 1] && gs[1..][j] == gs[j + 1];
        }
      }
      PiecesMarkedWithOwnOutcome(env, n, gs[1..], first.scene);
      forall k, c | 0 <= k < |gs| && c in gs[k].contacts
        ensures c.id in r.scene.solved && r.scene.solved[c.id] == env.solve(gs[k], SolveEach(env, n, gs[..k], sc).scene.floes).success
      {
        if k == 0 {
          assert gs[..0] == [];
          FirstPieceUntouchedLater(gs, c);
        } else {
          PrefixScene(env, n, gs, sc, k);
          assert gs[1..][k - 1] == gs[k];
        }
      }
    }
  }

  /** With disjoint pieces, a contact of the first piece is in none of the later ones. */
  lemma FirstPieceUntouchedLater(gs: seq<Group>, c: Contact)
    requires |gs| > 0 && DisjointIds(gs) && c in gs[0].contacts
    ensures Untouched(c.id, gs[1..])
  {
    assert c.id in Ids(gs[0].contacts);
    forall i | 0 <= i < |gs| - 1
      ensures c.id !in Ids(gs[1..][i].contacts)
    {
      assert gs[1..][i] == gs[i + 1];
      assert Ids(gs[0].contacts) !! Ids(gs[i + 1].contacts);
    }
  }

  /**
   * A group of more than 50 contact points whose `quad_cut` pieces share no
   * contact: each piece's contacts carry that piece's own outcome, and no
   * other flag changes.
   */
  lemma SplitGroupMarked(env: Env, n: nat, g: Group, sc: Scene)
    requires Sound(env, n) && Within(g, n) && |sc.floes| == n
    requires NumContacts(g) > SplitThreshold
    requires DisjointIds(env.quadCut(g))
    ensures var pieces := env.quadCut(g);
      var r := SolveActiveGroup(env, n, g, sc);
      && (forall k, c :: 0 <= k < |pieces| && c in pieces[k].contacts ==>
        c.id in r.scene.solved && r.scene.solved[c.id] == env.solve(pieces[k], SolveEach(env, n, pieces[..k], sc).scene.floes).success)
      && (forall id :: id in sc.solved && id !in Ids(g.contacts) ==> id in r.scene.solved && r.scene.solved[id] == sc.solved[id])
  {
    PiecesMarkedWithOwnOutcome(env, n, env.quadCut(g), sc);
  }

  /** With a solver that never succeeds, a pass counts no success. */
  lemma {:induction false} FailingPassCountsNothing(env: Env, n: nat, gs: seq<Group>, sc: Scene)
    requires Sound(env, n) && AllWithin(gs, n) && |sc.floes| == n
    requires forall g: Group, fs: seq<Floe> :: !env.solve(g, fs).success
    ensures RunPass(env, n, gs, sc).successes == 0
    decreases |gs|
  {
    if |gs| > 0 {
      var g := gs[0];
      var first := SolveActiveGroup(env, n, g, sc);
      if NumContacts(g) > SplitThreshold {
        FailingPiecesCountNothing(env, n, env.quadCut(g), sc);
      }
      FailingPassCountsNothing(env, n, gs[1..], first.scene);
    }
  }

  lemma {:induction false} FailingPiecesCountNothing(env: Env, n: nat, gs: seq<Group>, sc: Scene)
    requires Sound(env, n) && AllWithin(gs, n) && |sc.floes| == n
    requires forall g: Group, fs: seq<Floe> :: !env.solve(g, fs).success
    ensures SolveEach(env, n, gs, sc).successes == 0
    decreases |gs|
  {
    if |gs| > 0 {
      var first := SolveOne(env, n, gs[0], sc);
      FailingPiecesCountNothing(env, n, gs[1..], first.scene);
    }
  }

  /**
   * A split group counts one LCP but one success per piece: two solved pieces
   * give a pass with more successes than the LCPs it adds to `LCP_count`.
   */
  lemma SplitGroupOutcounts(env: Env, n: nat, g: Group, sc: Scene)
    requires Sound(env, n) && Within(g, n) && |sc.floes| == n
    requires NumContacts(g) > SplitThreshold
    requires |env.quadCut(g)| == 2
    requires forall h: Group, fs: seq<Floe> :: env.solve(h, fs).success
    ensures RunPass(env, n, [g], sc).successes == 2
  {
    var pieces := env.quadCut(g);
    var first := SolveOne(env, n, pieces[0], sc);
    var second := SolveOne(env, n, pieces[1], first.scene);
    assert pieces[1..][1..] == [];
    assert SolveEach(env, n, pieces[1..], first.scene).successes == 1;
    assert [g][1..] == [];
  }

  // ---------------------------------------------------------------------------
  // The per-cluster loop

  /** `min(60 * num_contacts(subgraph), 1000)`: the pass budget of a cluster. */
  function LoopCap(c: Group): nat {
    Min(PassesPerContact * NumContacts(c), PassCeiling)
  }

  /**
   * The loop state: current active groups, scene, counters, and for each pass
   * done so far its number of active groups and its number of successes
   * (`loop_cnt` is the number of passes).
   */
  datatype Loop = Loop(groups: seq<Group>, scene: Scene, tally: Tally, sizes: seq<nat>, successes: seq<nat>)

  /** The cluster's outcome: scene, counters, pass records, `all_solved`. */
  datatype ClusterResult = ClusterResult(scene: Scene, tally: Tally, sizes: seq<nat>, successes: seq<nat>, allSolved: bool)

  /** A loop state the code can reach: its groups are the active groups of its scene. */
  ghost predicate LoopOk(env: Env, n: nat, c: Group, st: Loop) {
    && Sound(env, n)
    && |st.scene.floes| == n
    && st.groups == env.active(c, st.scene.floes)
    && |st.sizes| == |st.successes| <= LoopCap(c)
  }

  /**
   * After the loop: when groups are still active, every contact in them is
   * marked unsolved, they are counted once more in `LCP_count`, and
   * `all_solved` is false.
   */
  function Finish(st: Loop): (r: ClusterResult)
    ensures r.scene.floes == st.scene.floes
    ensures r.sizes == st.sizes && r.successes == st.successes
    ensures r.allSolved <==> |st.groups| == 0
    ensures r.tally.lcpCount == st.tally.lcpCount + |st.groups|
    ensures r.tally.successes == st.tally.successes
    ensures forall i, ct :: 0 <= i < |st.groups| && ct in st.groups[i].contacts ==>
      ct.id in r.scene.solved && !r.scene.solved[ct.id]
    ensures forall id :: id in st.scene.solved && Untouched(id, st.groups) ==>
      id in r.scene.solved && r.scene.solved[id] == st.scene.solved[id]
    ensures r.tally.failed == st.tally.failed
    ensures |st.groups| == 0 ==> r.scene == st.scene
  {
    if |st.groups| != 0 then
      ClusterResult(st.scene.(solved := MarkAll(st.scene.solved, st.groups, false)),
                    st.tally.(lcpCount := st.tally.lcpCount + |st.groups|),
                    st.sizes, st.successes, false)
    else
      ClusterResult(st.scene, st.tally, st.sizes, st.successes, true)
  }

  /** One pass of the loop body, from `LCP_count += asubgraphs.size()` to `loop_cnt++`. */
  function Pass(env: Env, n: nat, c: Group, st: Loop): (r: Loop)
    requires LoopOk(env, n, c, st) && |st.sizes| < LoopCap(c)
    ensures LoopOk(env, n, c, r)
    ensures r.sizes == st.sizes + [|st.groups|]
    ensures |r.successes| == |st.successes| + 1
    ensures r.successes[..|st.successes|] == st.successes
    ensures r.tally.lcpCount == st.tally.lcpCount + |st.groups|
    ensures r.tally.successes == st.tally.successes + r.successes[|st.successes|]
  {
    var pass := RunPass(env, n, st.groups, st.scene);
    var tally := Tally(st.tally.lcpCount + |st.groups|, st.tally.successes + pass.successes,
                       AddStats(st.tally.failed, pass.failed));
    Loop(env.active(c, pass.scene.floes), pass.scene, tally, st.sizes + [|st.groups|], st.successes + [pass.successes])
  }

  /**
   * The `while` loop of `solve_contacts` for one cluster, exactly as written:
   * the progress guard reads the outer -1, so only an empty active set or the
   * spent budget stops it.
   */
  function Passes(env: Env, n: nat, c: Group, st: Loop): (r: Loop)
    requires LoopOk(env, n, c, st)
    ensures LoopOk(env, n, c, r)
    ensures |st.sizes| <= |r.sizes|
    ensures |r.groups| != 0 ==> |r.sizes| == LoopCap(c)
    decreases LoopCap(c) - |st.sizes|
  {
    if |st.groups| != 0 && |st.sizes| < LoopCap(c) && OuterLoopNbSuccess != 0 then
      Passes(env, n, c, Pass(env, n, c, st))
    else
      st
  }

  /** The whole per-cluster computation: the loop, then the leftover handling. */
  function ClusterLoop(env: Env, n: nat, c: Group, st: Loop): (r: ClusterResult)
    requires LoopOk(env, n, c, st)
    ensures |r.scene.floes| == n
    ensures |r.sizes| == |r.successes| <= LoopCap(c) <= PassCeiling
  {
    Finish(Passes(env, n, c, st))
  }

  /** Every pass of the loop runs over a non-empty set of active groups. */
  lemma {:induction false} PassesNonEmpty(env: Env, n: nat, c: Group, st: Loop)
    requires LoopOk(env, n, c, st)
    requires AllPositive(st.sizes)
    ensures AllPositive(Passes(env, n, c, st).sizes)
    decreases LoopCap(c) - |st.sizes|
  {
    if |st.groups| != 0 && |st.sizes| < LoopCap(c) {
      var next := Pass(env, n, c, st);
      assert Passes(env, n, c, st) == Passes(env, n, c, next) by {
        assert OuterLoopNbSuccess != 0;
      }
      assert next.sizes == st.sizes + [|st.groups|];
      PassesNonEmpty(env, n, c, next);
    } else {
      assert Passes(env, n, c, st) == st;
    }
  }

  /** Every pass recorded ran over at least one group. */
  predicate AllPositive(s: seq<nat>) {
    forall i :: 0 <= i < |s| ==> s[i] > 0
  }

  /**
   * `LCP_count` grows by the number of active groups of every pass, and
   * `nb_success` by the successes of every pass.
   */
  lemma {:induction false} PassesCount(env: Env, n: nat, c: Group, st: Loop)
    requires LoopOk(env, n, c, st)
    ensures var r := Passes(env, n, c, st);
      && r.tally.lcpCount + Sum(st.sizes) == st.tally.lcpCount + Sum(r.sizes)
      && r.tally.successes + Sum(st.successes) == st.tally.successes + Sum(r.successes)
    decreases LoopCap(c) - |st.sizes|
  {
    if |st.groups| != 0 && |st.sizes| < LoopCap(c) {
      var next := Pass(env, n, c, st);
      PassesCount(env, n, c, next);
      assert next.sizes[..|st.sizes|] == st.sizes;
      assert next.successes == st.successes + [next.successes[|st.successes|]];
      assert next.successes[..|st.successes|] == st.successes;
    }
  }

  /**
   * The cluster loop runs at most `min(60 * contacts, 1000)` passes, each over a
   * non-empty set of active groups.  `LCP_count` grows by the size of every
   * pass plus the groups still active at the end, `nb_success` by the
   * successes of every pass.  It ends with `all_solved` exactly when no group
   * is active, and otherwise only after spending the whole budget, with every
   * contact still active marked unsolved.
   */
  lemma ClusterLoopSpec(env: Env, n: nat, c: Group, sc: Scene, t: Tally)
    requires Sound(env, n) && |sc.floes| == n
    ensures var r := ClusterLoop(env, n, c, Loop(env.active(c, sc.floes), sc, t, [], []));
      var left := env.active(c, r.scene.floes);
      && |r.sizes| <= LoopCap(c) <= PassCeiling
      && (forall i :: 0 <= i < |r.sizes| ==> r.sizes[i] > 0)
      && r.tally.lcpCount == t.lcpCount + Sum(r.sizes) + |left|
      && r.tally.successes == t.successes + Sum(r.successes)
      && (r.allSolved <==> |left| == 0)
      && (!r.allSolved ==> |r.sizes| == LoopCap(c))
      && (forall i, ct :: 0 <= i < |left| && ct in left[i].contacts ==> ct.id in r.scene.solved && !r.scene.solved[ct.id])
  {
    var st := Loop(env.active(c, sc.floes), sc, t, [], []);
    PassesNonEmpty(env, n, c, st);
    PassesCount(env, n, c, st);
  }

  // ---------------------------------------------------------------------------
  // The guard as its comment describes it

  /**
   * The loop as the comment at the shadowing declaration describes it: a pass
   * that resolves nothing ends the loop, because the condition reads the
   * successes of the pass just done.
   */
  function PassesGuarded(env: Env, n: nat, c: Group, st: Loop, lastPass: int): (r: Loop)
    requires LoopOk(env, n, c, st)
    ensures LoopOk(env, n, c, r)
    ensures |st.sizes| <= |r.sizes|
    decreases LoopCap(c) - |st.sizes|
  {
    if |st.groups| != 0 && |st.sizes| < LoopCap(c) && lastPass != 0 then
      var next := Pass(env, n, c, st);
      PassesGuarded(env, n, c, next, next.successes[|st.successes|])
    else
      st
  }

  /** The per-cluster computation with the guard live: the guarded loop, then the leftover handling. */
  function ClusterLoopGuarded(env: Env, n: nat, c: Group, st: Loop): (r: ClusterResult)
    requires LoopOk(env, n, c, st)
    ensures |r.scene.floes| == n
    ensures |r.sizes| == |r.successes| <= LoopCap(c) <= PassCeiling
    ensures r.tally.lcpCount >= st.tally.lcpCount && r.tally.successes >= st.tally.successes
  {
    PassesGuardedCounts(env, n, c, st, OuterLoopNbSuccess);
    Finish(PassesGuarded(env, n, c, st, OuterLoopNbSuccess))
  }

  /** The guarded loop never lowers `LCP_count` or `nb_success`. */
  lemma {:induction false} PassesGuardedCounts(env: Env, n: nat, c: Group, st: Loop, lastPass: int)
    requires LoopOk(env, n, c, st)
    ensures var r := PassesGuarded(env, n, c, st, lastPass);
      r.tally.lcpCount >= st.tally.lcpCount && r.tally.successes >= st.tally.successes
    decreases LoopCap(c) - |st.sizes|
  {
    if |st.groups| != 0 && |st.sizes| < LoopCap(c) && lastPass != 0 {
      var next := Pass(env, n, c, st);
      PassesGuardedCounts(env, n, c, next, next.successes[|st.successes|]);
    }
  }

  /**
   * With the guard live, a pass that resolves nothing is always the last pass,
   * and a loop that stops with groups still active has either spent its budget
   * or just made a pass without progress.
   */
  lemma {:induction false} GuardedStopsWithoutProgress(env: Env, n: nat, c: Group, st: Loop, lastPass: int)
    requires LoopOk(env, n, c, st)
    requires NoneZero(st.successes)
    requires lastPass != 0 || |st.successes| > 0
    requires |st.successes| > 0 ==> lastPass == st.successes[|st.successes| - 1]
    ensures ProgressBeforeLast(PassesGuarded(env, n, c, st, lastPass).successes)
    ensures StopReason(c, PassesGuarded(env, n, c, st, lastPass))
    decreases LoopCap(c) - |st.sizes|
  {
    if |st.groups| != 0 && |st.sizes| < LoopCap(c) && lastPass != 0 {
      var next := Pass(env, n, c, st);
      var last := next.successes[|st.successes|];
      assert next.successes == st.successes + [last];
      assert PassesGuarded(env, n, c, st, lastPass) == PassesGuarded(env, n, c, next, last);
      if last != 0 {
        GuardedStopsWithoutProgress(env, n, c, next, last);
      } else {
        assert PassesGuarded(env, n, c, next, last) == next;
      }
    }
  }

  /** No recorded pass resolved nothing. */
  predicate NoneZero(s: seq<nat>) {
    forall i :: 0 <= i < |s| ==> s[i] != 0
  }

  /** Every recorded pass but the last resolved something. */
  predicate ProgressBeforeLast(s: seq<nat>) {
    forall i :: 0 <= i < |s| - 1 ==> s[i] != 0
  }

  /** A loop that stopped with groups active spent its budget or ended on a pass that resolved nothing. */
  predicate StopReason(c: Group, r: Loop) {
    |r.groups| != 0 ==> |r.sizes| == LoopCap(c) || (|r.successes| > 0 && r.successes[|r.successes| - 1] == 0)
  }

  /**
   * For the guarded loop of one cluster: no pass without progress is followed
   * by another, and an unresolved cluster has spent its budget or just made a
   * pass without progress.
   */
  lemma GuardedClusterSpec(env: Env, n: nat, c: Group, sc: Scene, t: Tally)
    requires Sound(env, n) && |sc.floes| == n
    ensures var r := ClusterLoopGuarded(env, n, c, Loop(env.active(c, sc.floes), sc, t, [], []));
      && (forall i :: 0 <= i < |r.successes| - 1 ==> r.successes[i] != 0)
      && (r.allSolved <==> |env.active(c, r.scene.floes)| == 0)
      && (!r.allSolved ==> |r.sizes| == LoopCap(c) || r.successes[|r.successes| - 1] == 0)
  {
    GuardedStopsWithoutProgress(env, n, c, Loop(env.active(c, sc.floes), sc, t, [], []), OuterLoopNbSuccess);
  }

  /**
   * The progress guard as written never fires: when the solver never succeeds
   * and the cluster never stops being active, the code spends the whole budget
   * on passes that resolve nothing, where the guarded loop stops after one.
   */
  lemma ProgressGuardNeverFires(env: Env, n: nat, c: Group, sc: Scene, t: Tally)
    requires Sound(env, n) && |sc.floes| == n
    requires forall g: Group, fs: seq<Floe> :: !env.solve(g, fs).success
    requires forall fs: seq<Floe> :: |env.active(c, fs)| > 0
    requires NumContacts(c) > 0
    ensures var st := Loop(env.active(c, sc.floes), sc, t, [], []);
      && |ClusterLoop(env, n, c, st).sizes| == LoopCap(c) >= PassesPerContact
      && (forall i :: 0 <= i < |ClusterLoop(env, n, c, st).successes| ==> ClusterLoop(env, n, c, st).successes[i] == 0)
      && |ClusterLoopGuarded(env, n, c, st).sizes| == 1
  {
    var st := Loop(env.active(c, sc.floes), sc, t, [], []);
    NoProgressLoop(env, n, c, st);
    assert ClusterLoop(env, n, c, st).successes == Passes(env, n, c, st).successes;
    var first := Pass(env, n, c, st);
    FailingPassCountsNothing(env, n, st.groups, st.scene);
    assert PassesGuarded(env, n, c, first, 0) == first;
  }

  lemma {:induction false} NoProgressLoop(env: Env, n: nat, c: Group, st: Loop)
    requires LoopOk(env, n, c, st)
    requires forall g: Group, fs: seq<Floe> :: !env.solve(g, fs).success
    requires AllZero(st.successes)
    ensures AllZero(Passes(env, n, c, st).successes)
    decreases LoopCap(c) - |st.sizes|
  {
    if |st.groups| != 0 && |st.sizes| < LoopCap(c) {
      FailingPassCountsNothing(env, n, st.groups, st.scene);
      var next := Pass(env, n, c, st);
      assert next.successes == st.successes + [0];
      NoProgressLoop(env, n, c, next);
      assert Passes(env, n, c, st) == Passes(env, n, c, next) by {
        assert OuterLoopNbSuccess != 0;
      }
    }
  }

  /** Every pass recorded counted zero successes. */
  predicate AllZero(s: seq<nat>) {
    forall i :: 0 <= i < |s| ==> s[i] == 0
  }

  /**
   * `solve_contacts` for one cluster, as written: the loop from the cluster's
   * first active groups, with the progress guard that never fires.
   */
  function SolveCluster(env: Env, n: nat, c: Group, sc: Scene, t: Tally): (r: ClusterResult)
    requires Sound(env, n) && |sc.floes| == n
    ensures |r.scene.floes| == n
    ensures |r.sizes| <= LoopCap(c) <= PassCeiling
    ensures r.tally.lcpCount == t.lcpCount + Sum(r.sizes) + |env.active(c, r.scene.floes)|
    ensures r.tally.successes == t.successes + Sum(r.successes)
    ensures r.allSolved <==> |env.active(c, r.scene.floes)| == 0
    ensures !r.allSolved ==> |r.sizes| == LoopCap(c)
  {
    ClusterLoopSpec(env, n, c, sc, t);
    ClusterLoop(env, n, c, Loop(env.active(c, sc.floes), sc, t, [], []))
  }

  // ---------------------------------------------------------------------------
  // solve_contacts and the totals kept across calls

  /** The clusters in order, each on the scene and counters the previous ones left. */
  function SolveClusters(env: Env, n: nat, cs: seq<Group>, sc: Scene, t: Tally): (r: (Scene, Tally))
    requires Sound(env, n) && |sc.floes| == n
    ensures |r.0.floes| == n
    ensures r.1.lcpCount >= t.lcpCount && r.1.successes >= t.successes
    decreases |cs|
  {
    if |cs| == 0 then (sc, t)
    else
      var first := SolveCluster(env, n, cs[0], sc, t);
      SolveClusters(env, n, cs[1..], first.scene, first.tally)
  }

  /** The result of every cluster in turn, each started from what the previous one left. */
  ghost function Runs(env: Env, n: nat, cs: seq<Group>, sc: Scene, t: Tally): (rs: seq<ClusterResult>)
    requires Sound(env, n) && |sc.floes| == n
    ensures |rs| == |cs|
    decreases |cs|
  {
    if |cs| == 0 then []
    else
      var first := SolveCluster(env, n, cs[0], sc, t);
      [first] + Runs(env, n, cs[1..], first.scene, first.tally)
  }

  /** The LCPs a cluster's run counts: the size of every pass, plus the groups left active at the end. */
  ghost function RunLcps(env: Env, c: Group, r: ClusterResult): nat {
    Sum(r.sizes) + |env.active(c, r.scene.floes)|
  }

  /** The LCPs counted over a list of runs. */
  ghost function TotalLcps(env: Env, cs: seq<Group>, rs: seq<ClusterResult>): nat
    requires |cs| == |rs|
    decreases |cs|
  {
    if |cs| == 0 then 0 else RunLcps(env, cs[0], rs[0]) + TotalLcps(env, cs[1..], rs[1..])
  }

  /** The successes counted over a list of runs: those of every pass. */
  ghost function TotalSuccesses(rs: seq<ClusterResult>): nat
    decreases |rs|
  {
    if |rs| == 0 then 0 else Sum(rs[0].successes) + TotalSuccesses(rs[1..])
  }

  /**
   * Over the clusters, `LCP_count` grows by every pass's size plus every
   * cluster's leftover groups, and `nb_success` by every pass's successes.
   */
  lemma {:induction false} SolveClustersCounts(env: Env, n: nat, cs: seq<Group>, sc: Scene, t: Tally)
    requires Sound(env, n) && |sc.floes| == n
    ensures var r := SolveClusters(env, n, cs, sc, t);
      var rs := Runs(env, n, cs, sc, t);
      && r.1.lcpCount == t.lcpCount + TotalLcps(env, cs, rs)
      && r.1.successes == t.successes + TotalSuccesses(rs)
    decreases |cs|
  {
    if |cs| != 0 {
      var first := SolveCluster(env, n, cs[0], sc, t);
      var rs := Runs(env, n, cs, sc, t);
      assert rs == [first] + Runs(env, n, cs[1..], first.scene, first.tally);
      assert rs[1..] == Runs(env, n, cs[1..], first.scene, first.tally);
      assert SolveClusters(env, n, cs, sc, t) == SolveClusters(env, n, cs[1..], first.scene, first.tally);
      SolveClustersCounts(env, n, cs[1..], first.scene, first.tally);
    }
  }

  /** The manager's totals: `m_nb_lcp`, `m_nb_lcp_success`, `m_nb_lcp_failed_stats`. */
  datatype Totals = Totals(nbLcp: int, nbLcpSuccess: int, failed: Stats)

  /**
   * `solve_contacts`: solves the clusters (`collision_subgraphs` of the graph),
   * adds the call's counters to the totals, three statistics elementwise, and
   * returns the call's `nb_success`.
   */
  function SolveContacts(m: Totals, env: Env, n: nat, clusters: seq<Group>, sc: Scene): (r: (Totals, Scene, int))
    requires Sound(env, n) && |sc.floes| == n
    ensures r.2 >= 0
    ensures r.0.nbLcpSuccess == m.nbLcpSuccess + r.2
    ensures r.0.nbLcp >= m.nbLcp
    ensures r.0.failed.compression >= m.failed.compression
    ensures r.0.failed.decompression >= m.failed.decompression
    ensures r.0.failed.energyKept >= m.failed.energyKept
    ensures |r.1.floes| == n
    ensures var t := SolveClusters(env, n, clusters, sc, Tally(0, 0, Stats(0, 0, 0))).1;
      && r.0.nbLcp == m.nbLcp + t.lcpCount
      && r.0.nbLcpSuccess == m.nbLcpSuccess + t.successes
      && r.0.failed == AddStats(m.failed, t.failed)
      && r.2 == t.successes
  {
    var (scene, t) := SolveClusters(env, n, clusters, sc, Tally(0, 0, Stats(0, 0, 0)));
    (Totals(m.nbLcp + t.lcpCount, m.nbLcpSuccess + t.successes, AddStats(m.failed, t.failed)), scene, t.successes)
  }

  /**
   * One call adds to `m_nb_lcp` every pass's size plus every cluster's leftover
   * groups, and returns and adds to `m_nb_lcp_success` every pass's successes.
   */
  lemma SolveContactsCounts(m: Totals, env: Env, n: nat, clusters: seq<Group>, sc: Scene)
    requires Sound(env, n) && |sc.floes| == n
    ensures var r := SolveContacts(m, env, n, clusters, sc);
      var rs := Runs(env, n, clusters, sc, Tally(0, 0, Stats(0, 0, 0)));
      && r.0.nbLcp == m.nbLcp + TotalLcps(env, clusters, rs)
      && r.2 == TotalSuccesses(rs)
      && r.0.nbLcpSuccess == m.nbLcpSuccess + TotalSuccesses(rs)
  {
    SolveClustersCounts(env, n, clusters, sc, Tally(0, 0, Stats(0, 0, 0)));
  }

  /** `success_ratio`: 100 with no LCP yet, otherwise the percentage of successes. */
  function SuccessRatio(m: Totals): (r: real)
    ensures m.nbLcp == 0 ==> r == 100.0
    ensures m.nbLcp != 0 ==> r * (m.nbLcp as real) == 100.0 * (m.nbLcpSuccess as real)
  {
    if m.nbLcp == 0 then 100.0 else 100.0 * (m.nbLcpSuccess as real) / (m.nbLcp as real)
  }

  /** The ratio is at most 100 exactly when successes do not exceed the LCP count. */
  lemma SuccessRatioBound(m: Totals)
    requires m.nbLcp > 0
    ensures SuccessRatio(m) <= 100.0 <==> m.nbLcpSuccess <= m.nbLcp
  {
    var r := SuccessRatio(m);
    var total := m.nbLcp as real;
    assert r * total == 100.0 * (m.nbLcpSuccess as real);
    if r <= 100.0 {
      assert r * total <= 100.0 * total;
    } else {
      assert r * total > 100.0 * total;
    }
  }
}

=== FILE: lcp_solver.dfy ===
/**
 * The LCP solver of `ope/LCP_solver.hpp`: the escalation loop over a fixed
 * table of (strategy, acceptance tier) pairs, the best-so-far candidate kept by
 * residual against the unperturbed problem, the tiered acceptance test and the
 * per-contact normal-velocity test.
 *
 * The pivoting algorithms, the residual `LCP_error`, the derived solution
 * `calcSol`, the kinetic-energy ratio `calcEc` and the product `J^T * Sol` are
 * oracles: function-typed fields of `Problem`.  A NaN is carried as a flag next
 * to the vector it was found in, and `real` stands for `double`.
 */
module LcpSolver {
  import opened Wrappers

  /** Escalation strategies: 0 perturbation, 1 Lemke, 2 lexicographic Lemke, 3 the reserved no-op. */
  datatype Strategy = Perturb | Lemke | LexicoLemke | Refine

  /** One row of the escalation table. */
  datatype Entry = Entry(strategy: Strategy, tier: int)

  /** The escalation table `MatLCP`, walked in order, one entry per iteration. */
  const Table: seq<Entry> := [
    Entry(Lemke, 1), Entry(LexicoLemke, 1), Entry(Refine, 1),
    Entry(Perturb, 1), Entry(Lemke, 1), Entry(LexicoLemke, 1), Entry(Refine, 1),
    Entry(Perturb, 1), Entry(Lemke, 1), Entry(LexicoLemke, 1), Entry(Refine, 1),
    Entry(Perturb, 2), Entry(Lemke, 2), Entry(LexicoLemke, 2), Entry(Refine, 2),
    Entry(Perturb, 2), Entry(Lemke, 2), Entry(LexicoLemke, 2), Entry(Refine, 2),
    Entry(Perturb, 3), Entry(Lemke, 3), Entry(LexicoLemke, 3), Entry(Refine, 3)
  ]

  /** The strategies that run a pivoting algorithm and can therefore report success. */
  predicate Pivots(s: Strategy) {
    s == Lemke || s == LexicoLemke
  }

  /**
   * The facts about the table the loop relies on: a pivoting entry is never
   * the last one, and the entry after it carries the same tier.
   */
  lemma TableShape()
    ensures |Table| == 23
    ensures forall k :: 0 <= k < |Table| && Pivots(Table[k].strategy) ==>
      k + 1 < |Table| && Table[k + 1].tier == Table[k].tier
    ensures forall k :: 0 <= k < |Table| ==> 1 <= Table[k].tier <= 3
  {
  }

  /**
   * The tier the loop reads after scoring the candidate of entry `k`: the source
   * reads it after the increment, at entry `k + 1`.  That read stays inside the
   * table and yields the tier of entry `k` itself.
   */
  function AcceptTier(k: nat): (t: int)
    requires k < |Table| && Pivots(Table[k].strategy)
    ensures t == Table[k].tier
    ensures 1 <= t <= 3
  {
    TableShape();
    Table[k + 1].tier
  }

  // ---------------------------------------------------------------------------
  // Acceptance test

  function Abs(x: real): real {
    if x < 0.0 then -x else x
  }

  /** Relative kinetic-energy slack allowed at each tier. */
  function EnergyTolerance(tier: int): real {
    if tier == 3 then 0.01 else 0.0001
  }

  /** The residual bound of each tier; tier 3 ignores the residual. */
  function ResidualBound(tier: int): Option<real> {
    if tier == 1 then Some(0.00000000001)
    else if tier == 2 then Some(0.00000001)
    else None
  }

  /** The acceptance criteria of a tier, stated as a table of bounds. */
  predicate MeetsTier(tier: int, ec: real, bornEc: real, err: real, vrel: bool) {
    && ec <= bornEc * (1.0 + EnergyTolerance(tier))
    && (ResidualBound(tier).Some? ==> Abs(err) <= ResidualBound(tier).value)
    && vrel
  }

  /** `LCPtest`: accepts a candidate at tier 1, 2 or 3 exactly when it meets the tier's bounds; any other tier accepts. */
  function LcpTest(tier: int, ec: real, bornEc: real, err: real, vrel: bool): (accept: bool)
    ensures 1 <= tier <= 3 ==> (accept <==> MeetsTier(tier, ec, bornEc, err, vrel))
    ensures !(1 <= tier <= 3) ==> accept
  {
    if tier == 1 then
      !(ec > bornEc * (1.0 + 0.0001) || Abs(err) > 0.00000000001 || !vrel)
    else if tier == 2 then
      !(ec > bornEc * (1.0 + 0.0001) || Abs(err) > 0.00000001 || !vrel)
    else if tier == 3 then
      !(ec > bornEc * (1.0 + 0.01) || !vrel)
    else
      true
  }

  /** The tiers are nested: whatever tier 1 accepts, tier 2 accepts, and whatever tier 2 accepts, tier 3 accepts. */
  lemma TiersNested(ec: real, bornEc: real, err: real, vrel: bool)
    requires bornEc >= 0.0
    ensures LcpTest(1, ec, bornEc, err, vrel) ==> LcpTest(2, ec, bornEc, err, vrel)
    ensures LcpTest(2, ec, bornEc, err, vrel) ==> LcpTest(3, ec, bornEc, err, vrel)
  {
  }

  // ---------------------------------------------------------------------------
  // Normal-velocity test

  /** The gaps of all contact points, edge by edge and point by point within an edge. */
  function Flatten(edges: seq<seq<real>>): seq<real>
    decreases |edges|
  {
    if |edges| == 0 then [] else Flatten(edges[..|edges| - 1]) + edges[|edges| - 1]
  }

  lemma {:induction false} FlattenSplit(edges: seq<seq<real>>, e: nat)
    requires e <= |edges|
    ensures Flatten(edges) == Flatten(edges[..e]) + Flatten(edges[e..])
    decreases |edges|
  {
    if e == |edges| {
      assert edges[..e] == edges;
      assert edges[e..] == [];
    } else {
      var n := |edges| - 1;
      var init := edges[..n];
      FlattenSplit(init, e);
      assert init[..e] == edges[..e];
      assert init[e..] == edges[e..][..|edges[e..]| - 1];
      assert edges[e..][|edges[e..]| - 1] == edges[n];
    }
  }

  /** The gaps of edge `e` sit between those of the edges before it and those after it. */
  lemma FlattenAround(edges: seq<seq<real>>, e: nat)
    requires e < |edges|
    ensures Flatten(edges[..e + 1]) == Flatten(edges[..e]) + edges[e]
    ensures Flatten(edges) == Flatten(edges[..e]) + edges[e] + Flatten(edges[e + 1..])
  {
    assert edges[..e + 1][..e] == edges[..e];
    FlattenSplit(edges, e + 1);
  }

  /** One contact point passes when its normal velocity is not a negative value with `V * dt > dist / 50`. */
  predicate Admissible(v: real, dist: real, dt: real) {
    !(v < 0.0 && v * dt > dist / 50.0)
  }

  /** Every enumerated contact point passes; a velocity vector too short to cover them fails. */
  predicate AllAdmissible(vel: seq<real>, dists: seq<seq<real>>, dt: real) {
    && |Flatten(dists)| <= |vel|
    && forall k :: 0 <= k < |Flatten(dists)| ==> Admissible(vel[k], Flatten(dists)[k], dt)
  }

  /** `VRelNtest`: walks the contact points edge by edge and stops at the first one that fails. */
  method VRelNTest(vel: seq<real>, dists: seq<seq<real>>, dt: real) returns (ok: bool)
    requires |Flatten(dists)| <= |vel|
    ensures ok <==> AllAdmissible(vel, dists, dt)
  {
    ghost var all := Flatten(dists);
    var id := 0;
    var e := 0;
    assert dists[..0] == [];
    while e < |dists|
      invariant 0 <= e <= |dists|
      invariant id == |Flatten(dists[..e])| <= |all|
      invariant forall k :: 0 <= k < id ==> Admissible(vel[k], all[k], dt)
    {
      FlattenAround(dists, e);
      ghost var before := Flatten(dists[..e]);
      var pt := 0;
      while pt < |dists[e]|
        invariant 0 <= pt <= |dists[e]|
        invariant id == |before| + pt
        invariant forall k :: 0 <= k < id ==> Admissible(vel[k], all[k], dt)
      {
        assert all[id] == dists[e][pt];
        if vel[id] < 0.0 {
          var delta := vel[id] * dt;
          if delta > dists[e][pt] / 50.0 {
            return false;
          }
        }
        id := id + 1;
        pt := pt + 1;
      }
      e := e + 1;
    }
    assert dists[..e] == dists;
    return true;
  }

  /**
   * With a non-negative time step and non-negative gaps the normal-velocity test
   * never rejects: a negative velocity times the step is never above a
   * non-negative gap fraction.
   */
  lemma NonNegativeGapsAlwaysPass(vel: seq<real>, dists: seq<seq<real>>, dt: real)
    requires dt >= 0.0
    requires forall k :: 0 <= k < |Flatten(dists)| ==> Flatten(dists)[k] >= 0.0
    requires |Flatten(dists)| <= |vel|
    ensures AllAdmissible(vel, dists, dt)
  {
    forall k | 0 <= k < |Flatten(dists)|
      ensures Admissible(vel[k], Flatten(dists)[k], dt)
    {
      if vel[k] < 0.0 {
        assert vel[k] * dt <= 0.0;
      }
    }
  }

  // ---------------------------------------------------------------------------
  // The problem and its oracles

  /** A complementarity problem: matrix, vector and current solution vector. */
  datatype Lcp = Lcp(a: seq<seq<real>>, q: seq<real>, z: seq<real>)

  /** What a pivoting algorithm reports: success, the solution vector, whether it holds a NaN. */
  datatype Pivot = Pivot(success: bool, z: seq<real>, zHasNaN: bool)

  /** The physical solution derived from a `z`, and whether it holds a NaN. */
  datatype Derived = Derived(sol: seq<real>, hasNaN: bool)

  /**
   * Everything `solve(graph, success)` reads: the problem built from the contact
   * graph, the free velocity `W`, the gap of every contact point, the time step
   * `DT_DEFAULT`, and the numerical collaborators as oracles.
   */
  datatype Problem = Problem(
    lcp: Lcp,
    free: seq<real>,
    dists: seq<seq<real>>,
    dt: real,
    lemke: Lcp -> Pivot,
    lexicoLemke: Lcp -> Pivot,
    noise: (nat, nat, nat) -> real,
    error: Lcp -> real,
    calcSol: seq<real> -> Derived,
    energy: seq<real> -> real,
    normalVelocity: seq<real> -> seq<real>)

  /**
   * `random_perturbation`: every non-zero entry of the matrix moves by a random
   * amount (`noise`, indexed by table entry and position), zero entries stay zero.
   */
  function Perturbation(a: seq<seq<real>>, k: nat, noise: (nat, nat, nat) -> real): (r: seq<seq<real>>)
    ensures |r| == |a|
    ensures forall i :: 0 <= i < |a| ==> |r[i]| == |a[i]|
    ensures forall i, j :: 0 <= i < |a| && 0 <= j < |a[i]| && a[i][j] == 0.0 ==> r[i][j] == 0.0
  {
    seq(|a|, i requires 0 <= i < |a| =>
      seq(|a[i]|, j requires 0 <= j < |a[i]| =>
        if a[i][j] != 0.0 then a[i][j] + noise(k, i, j) else a[i][j]))
  }

  /** `solve(lcp)`: Lemke first; the lexicographic variant runs on what Lemke left only when Lemke fails. */
  function SolveLcp(lemke: Lcp -> Pivot, lexicoLemke: Lcp -> Pivot, lcp: Lcp): (r: (bool, Lcp))
    ensures r.0 <==> lemke(lcp).success || lexicoLemke(lcp.(z := lemke(lcp).z)).success
    ensures r.1.a == lcp.a && r.1.q == lcp.q
  {
    var first := lemke(lcp);
    var after := lcp.(z := first.z);
    if first.success then (true, after)
    else
      var second := lexicoLemke(after);
      (second.success, after.(z := second.z))
  }

  /** When Lemke succeeds, the lexicographic algorithm is not consulted at all. */
  lemma LexicoOnlyAfterLemkeFails(lemke: Lcp -> Pivot, lexico1: Lcp -> Pivot, lexico2: Lcp -> Pivot, lcp: Lcp)
    requires lemke(lcp).success
    ensures SolveLcp(lemke, lexico1, lcp) == SolveLcp(lemke, lexico2, lcp)
  {
  }

  // ---------------------------------------------------------------------------
  // The escalation loop

  /** A scored candidate: its `z` and its residual on the unperturbed problem. */
  datatype Candidate = Candidate(z: seq<real>, err: real)

  /**
   * The loop state: table index `comptchgt`, working copy `lcp`, the copy
   * `lcp_orig` taken before any perturbation, the best candidate so far
   * (`None` while `best_Err` still holds its initial maximum), `Solc`, `solved`.
   */
  datatype Search = Search(index: nat, lcp: Lcp, orig: Lcp, best: Option<Candidate>, solc: seq<real>, solved: bool)

  function Start(p: Problem): Search {
    Search(0, p.lcp, p.lcp, None, seq(|p.free|, _ => 0.0), false)
  }

  /** The working problem after the strategy of entry `k`, with the success and NaN flags of the attempt. */
  function RunStrategy(p: Problem, lcp: Lcp, k: nat): (r: (Lcp, bool, bool))
    requires k < |Table|
    ensures r.1 ==> Pivots(Table[k].strategy)
    ensures r.0.q == lcp.q
    ensures Table[k].strategy != Perturb ==> r.0.a == lcp.a
  {
    match Table[k].strategy
    case Perturb => (lcp.(a := Perturbation(lcp.a, k, p.noise)), false, false)
    case Lemke =>
      var piv := p.lemke(lcp);
      (lcp.(z := piv.z), piv.success, piv.zHasNaN)
    case LexicoLemke =>
      var piv := p.lexicoLemke(lcp);
      (lcp.(z := piv.z), piv.success, piv.zHasNaN)
    case Refine => (lcp, false, false)
  }

  /** The attempt of the current entry succeeded with a finite `z`, so the loop goes on to score it. */
  predicate Reached(p: Problem, s: Search)
    requires s.index < |Table|
  {
    var r := RunStrategy(p, s.lcp, s.index);
    r.1 && !r.2
  }

  /** The best residual never gets worse. */
  predicate NoWorse(after: Option<Candidate>, before: Option<Candidate>) {
    before.Some? ==> after.Some? && after.value.err <= before.value.err
  }

  /** One iteration of the `while (!solved)` loop, from the table lookup to `LCPtest`. */
  function Step(p: Problem, s: Search): (r: Search)
    requires s.index < |Table|
  {
    var k := s.index;
    var (lcp, success, nan) := RunStrategy(p, s.lcp, k);
    var next := s.(index := k + 1, lcp := lcp);
    if !success || nan then next
    else
      var err := p.error(s.orig.(z := lcp.z));
      var best := if s.best.None? || err < s.best.value.err then Candidate(lcp.z, err) else s.best.value;
      var orig := s.orig.(z := best.z);
      var derived := p.calcSol(orig.z);
      var scored := next.(orig := orig, best := Some(best), solc := derived.sol);
      if derived.hasNaN then scored
      else
        TableShape();
        var ec := p.energy(derived.sol);
        var vrel := AllAdmissible(p.normalVelocity(derived.sol), p.dists, p.dt);
        scored.(solved := LcpTest(Table[k + 1].tier, ec, 1.0, p.error(orig), vrel))
  }

  /** A solved state holds an accepted candidate: the best `z`, its finite derived solution, and a passed test. */
  predicate Accepted(p: Problem, s: Search) {
    && 1 <= s.index < |Table|
    && s.best.Some?
    && p.calcSol(s.best.value.z) == Derived(s.solc, false)
    && LcpTest(Table[s.index].tier, p.energy(s.solc), 1.0, s.best.value.err,
               AllAdmissible(p.normalVelocity(s.solc), p.dists, p.dt))
  }

  /**
   * What the loop keeps true: the unperturbed copy still has the original matrix
   * and vector, it carries the best `z`, the best residual is that of the best
   * `z` on it, and a solved state is an accepted one.
   */
  ghost predicate Inv(p: Problem, s: Search) {
    && s.index <= |Table|
    && s.orig.a == p.lcp.a && s.orig.q == p.lcp.q
    && (s.best.Some? ==> s.orig.z == s.best.value.z && s.best.value.err == p.error(s.orig))
    && (s.solved ==> Accepted(p, s))
  }

  /**
   * One iteration advances the table index by exactly one, keeps the invariant,
   * never worsens the best residual, changes nothing but the index and working
   * copy when the attempt is not scored, and otherwise scores the best `z`.
   */
  lemma StepSpec(p: Problem, s: Search)
    requires s.index < |Table| && !s.solved && Inv(p, s)
    ensures Step(p, s).index == s.index + 1
    ensures Inv(p, Step(p, s))
    ensures NoWorse(Step(p, s).best, s.best)
    ensures !Reached(p, s) ==>
      Step(p, s) == s.(index := s.index + 1, lcp := RunStrategy(p, s.lcp, s.index).0)
    ensures Reached(p, s) ==>
      && Pivots(Table[s.index].strategy)
      && Step(p, s).best.Some?
      && Step(p, s).orig.z == Step(p, s).best.value.z
      && Step(p, s).solc == p.calcSol(Step(p, s).best.value.z).sol
  {
    TableShape();
    var k := s.index;
    var r := Step(p, s);
    if Reached(p, s) {
      var lcp := RunStrategy(p, s.lcp, k).0;
      var err := p.error(s.orig.(z := lcp.z));
      var best := if s.best.None? || err < s.best.value.err then Candidate(lcp.z, err) else s.best.value;
      assert r.best == Some(best);
      assert r.orig == s.orig.(z := best.z);
      if best != Candidate(lcp.z, err) {
        assert best == s.best.value;
        assert best.err == p.error(s.orig);
        assert s.orig == s.orig.(z := best.z);
      }
      assert best.err == p.error(r.orig);
      if r.solved {
        assert Table[k + 1].tier == Table[r.index].tier;
      }
    }
  }

  /** Iterating the loop from `s` until it is solved or the table is exhausted. */
  function Run(p: Problem, s: Search): (r: Search)
    requires s.index <= |Table|
    decreases |Table| - s.index
  {
    if s.solved || s.index == |Table| then s else Run(p, Step(p, s))
  }

  /**
   * The loop stops within the table: it ends solved or with every one of the 23
   * entries tried, keeps the invariant, and the best residual at the end is no
   * worse than at the start.
   */
  lemma {:induction false} RunSpec(p: Problem, s: Search)
    requires Inv(p, s)
    ensures s.index <= Run(p, s).index <= |Table|
    ensures Run(p, s).solved || Run(p, s).index == |Table|
    ensures Inv(p, Run(p, s))
    ensures NoWorse(Run(p, s).best, s.best)
    decreases |Table| - s.index
  {
    if !(s.solved || s.index == |Table|) {
      StepSpec(p, s);
      RunSpec(p, Step(p, s));
    }
  }

  /** What `solve` returns from a final loop state: `Solc` when solved, the free velocity `W` otherwise. */
  function Outcome(p: Problem, r: Search): (seq<real>, bool) {
    if r.solved then (r.solc, true) else (p.free, false)
  }

  /**
   * `solve(graph, success)`.  On exhaustion the free velocity comes back with
   * `success` false; on success the returned velocity is the finite solution
   * derived from some candidate, its kinetic-energy ratio is at most 1.01 and it
   * passes the normal-velocity test.
   */
  method SolveGraph(p: Problem) returns (sol: seq<real>, success: bool)
    ensures (sol, success) == Outcome(p, Run(p, Start(p)))
    ensures !success ==> sol == p.free
    ensures success ==> p.energy(sol) <= 1.01
    ensures success ==> AllAdmissible(p.normalVelocity(sol), p.dists, p.dt)
    ensures success ==> exists z :: p.calcSol(z) == Derived(sol, false)
  {
    var s := Start(p);
    while !s.solved
      invariant Inv(p, s)
      invariant Run(p, s) == Run(p, Start(p))
      decreases |Table| - s.index
    {
      if s.index >= |Table| {
        success := false;
        return p.free, success;
      }
      StepSpec(p, s);
      s := Step(p, s);
    }
    TableShape();
    assert Accepted(p, s);
    assert p.calcSol(s.best.value.z) == Derived(s.solc, false);
    success := true;
    return s.solc, success;
  }
}

=== FILE: legacy_manager.dfy ===
/**
 * The older collision manager of `ope/LCP_manager.hpp`, taken sequentially: for
 * each cluster, solve every active group, mark it with its own outcome, apply
 * its solution whatever the outcome, and recompute the active groups, until
 * none is left or `60 * num_contacts` passes are done.  There is no ceiling of
 * 1000 passes, no splitting of large groups and no handling of leftovers.
 *
 * The solver and the active-subgraph extraction are oracles.  The solver
 * stands for `LCPSolver::solve` behind the graph-to-LCP builder; this model
 * does not tie it to `LcpSolver`, whose input is the built problem.
 */
module LegacyManager {
  import opened Floes
  import opened ContactGraph

  /** Passes allowed per contact point of a cluster. */
  const PassesPerContact: nat := 60

  /** The collaborators: `active_subgraphs` and `LCPSolver::solve(graph, success)`. */
  datatype Env = Env(
    active: (Group, seq<Floe>) -> seq<Group>,
    solve: (Group, seq<Floe>) -> (bool, seq<real>))

  /** The floes of the scene and the shared solved flags of its contacts. */
  datatype Scene = Scene(floes: seq<Floe>, solved: Flags)

  /** The solution has a 3-component block per vertex, and every active group refers to floes of the scene. */
  ghost predicate Sound(env: Env, n: nat) {
    && (forall g: Group, fs: seq<Floe> :: |env.solve(g, fs).1| >= 3 * |g.floes|)
    && (forall c: Group, fs: seq<Floe> :: AllWithin(env.active(c, fs), n))
  }

  /** Vertex `v`'s velocity block written into its floe. */
  function SetVelocity(f: Floe, sol: seq<real>, v: nat): Floe
    requires 3 * v + 2 < |sol|
  {
    f.(state := f.state.(speed := Vec(sol[3 * v], sol[3 * v + 1]), rot := sol[3 * v + 2]))
  }

  /**
   * `update_floes_state`: the floe of vertex `v` takes speed `(Sol(3v), Sol(3v+1))`
   * and rotation `Sol(3v+2)`.  Position, orientation and impulse never change,
   * and floes that are not vertices of the group do not change at all.
   */
  function UpdateFloesState(floes: seq<Floe>, vs: seq<nat>, sol: seq<real>): (r: seq<Floe>)
    requires forall v :: 0 <= v < |vs| ==> vs[v] < |floes|
    requires |sol| >= 3 * |vs|
    ensures |r| == |floes|
    ensures forall f :: 0 <= f < |floes| ==>
      && r[f].state.pos == floes[f].state.pos
      && r[f].state.theta == floes[f].state.theta
      && r[f].impulse == floes[f].impulse
    ensures forall f :: 0 <= f < |floes| && f !in vs ==> r[f] == floes[f]
    decreases |vs|
  {
    if |vs| == 0 then floes
    else
      var v := |vs| - 1;
      var prev := UpdateFloesState(floes, vs[..v], sol);
      assert forall f :: f !in vs ==> f !in vs[..v];
      prev[vs[v] := SetVelocity(prev[vs[v]], sol, v)]
  }

  /** When the vertices name distinct floes, each of them receives exactly its own block. */
  lemma {:induction false} UpdateFloesStateEffect(floes: seq<Floe>, vs: seq<nat>, sol: seq<real>)
    requires forall v :: 0 <= v < |vs| ==> vs[v] < |floes|
    requires |sol| >= 3 * |vs|
    requires Distinct(vs)
    ensures forall v :: 0 <= v < |vs| ==>
      && UpdateFloesState(floes, vs, sol)[vs[v]].state.speed == Vec(sol[3 * v], sol[3 * v + 1])
      && UpdateFloesState(floes, vs, sol)[vs[v]].state.rot == sol[3 * v + 2]
    decreases |vs|
  {
    if |vs| > 0 {
      var last := |vs| - 1;
      var init := vs[..last];
      UpdateFloesStateEffect(floes, init, sol);
      assert vs[last] !in init;
      forall v | 0 <= v < |vs|
        ensures UpdateFloesState(floes, vs, sol)[vs[v]].state.speed == Vec(sol[3 * v], sol[3 * v + 1])
        ensures UpdateFloesState(floes, vs, sol)[vs[v]].state.rot == sol[3 * v + 2]
      {
        if v < last {
          assert init[v] == vs[v];
        }
      }
    }
  }

  /** What a stretch of solves leaves: the scene and the successes counted. */
  datatype PassResult = PassResult(scene: Scene, successes: nat)

  /** The body of the inner loop for one group: solve, mark with the outcome, count, apply. */
  function SolveGroup(env: Env, n: nat, g: Group, sc: Scene): (r: PassResult)
    requires Sound(env, n) && Within(g, n) && |sc.floes| == n
    ensures |r.scene.floes| == n
    ensures r.successes == 1 <==> env.solve(g, sc.floes).0
    ensures r.successes <= 1
    ensures forall c :: c in g.contacts ==> c.id in r.scene.solved && r.scene.solved[c.id] == env.solve(g, sc.floes).0
    ensures forall id :: id in sc.solved && id !in Ids(g.contacts) ==> id in r.scene.solved && r.scene.solved[id] == sc.solved[id]
  {
    var (success, sol) := env.solve(g, sc.floes);
    var flags := MarkSolved(sc.solved, g.contacts, success);
    PassResult(Scene(UpdateFloesState(sc.floes, g.floes, sol), flags), if success then 1 else 0)
  }

  /**
   * The state update does not depend on the outcome: two solves returning the
   * same vector move the floes in the same way, one marked solved and one not.
   */
  lemma UpdateIgnoresOutcome(env: Env, env2: Env, n: nat, g: Group, sc: Scene)
    requires Sound(env, n) && Sound(env2, n) && Within(g, n) && |sc.floes| == n
    requires env.solve(g, sc.floes).1 == env2.solve(g, sc.floes).1
    requires env.solve(g, sc.floes).0 && !env2.solve(g, sc.floes).0
    ensures SolveGroup(env, n, g, sc).scene.floes == SolveGroup(env2, n, g, sc).scene.floes
    ensures SolveGroup(env, n, g, sc).successes == 1 && SolveGroup(env2, n, g, sc).successes == 0
  {
  }

  /** One pass over the active groups, each solved on the scene its predecessors left. */
  function RunPass(env: Env, n: nat, gs: seq<Group>, sc: Scene): (r: PassResult)
    requires Sound(env, n) && AllWithin(gs, n) && |sc.floes| == n
    ensures |r.scene.floes| == n
    ensures r.successes <= |gs|
    decreases |gs|
  {
    if |gs| == 0 then PassResult(sc, 0)
    else
      var first := SolveGroup(env, n, gs[0], sc);
      var rest := RunPass(env, n, gs[1..], first.scene);
      PassResult(rest.scene, first.successes + rest.successes)
  }

  /** `60 * num_contacts(subgraph)`: the pass budget of a cluster. */
  function LoopCap(c: Group): nat {
    PassesPerContact * NumContacts(c)
  }

  /** The loop state: active groups, scene, `LCP_count`, `nb_success`, and the size of every pass so far. */
  datatype Loop = Loop(groups: seq<Group>, scene: Scene, lcpCount: nat, successes: nat, sizes: seq<nat>)

  ghost predicate LoopOk(env: Env, n: nat, c: Group, st: Loop) {
    && Sound(env, n)
    && |st.scene.floes| == n
    && st.groups == env.active(c, st.scene.floes)
    && |st.sizes| <= LoopCap(c)
  }

  /** The `while` loop for one cluster. */
  function ClusterLoop(env: Env, n: nat, c: Group, st: Loop): (r: Loop)
    requires LoopOk(env, n, c, st)
    ensures LoopOk(env, n, c, r)
    ensures |st.sizes| <= |r.sizes|
    ensures r.successes >= st.successes
    decreases LoopCap(c) - |st.sizes|
  {
    if |st.groups| != 0 && |st.sizes| < LoopCap(c) then
      var pass := RunPass(env, n, st.groups, st.scene);
      ClusterLoop(env, n, c, Loop(env.active(c, pass.scene.floes), pass.scene, st.lcpCount + |st.groups|,
                                  st.successes + pass.successes, st.sizes + [|st.groups|]))
    else
      st
  }

  /**
   * The older loop makes at most `60 * num_contacts` passes and stops exactly
   * when no group is active or that budget is spent; `LCP_count` grows by the
   * number of active groups of every pass and `nb_success` by at most as much.
   */
  lemma {:induction false} ClusterLoopSpec(env: Env, n: nat, c: Group, st: Loop)
    requires LoopOk(env, n, c, st)
    ensures var r := ClusterLoop(env, n, c, st);
      && |r.sizes| <= LoopCap(c)
      && (|r.groups| == 0 || |r.sizes| == LoopCap(c))
      && r.lcpCount + Sum(st.sizes) == st.lcpCount + Sum(r.sizes)
      && r.successes + st.lcpCount <= st.successes + r.lcpCount
    decreases LoopCap(c) - |st.sizes|
  {
    if |st.groups| != 0 && |st.sizes| < LoopCap(c) {
      var pass := RunPass(env, n, st.groups, st.scene);
      var next := Loop(env.active(c, pass.scene.floes), pass.scene, st.lcpCount + |st.groups|,
                       st.successes + pass.successes, st.sizes + [|st.groups|]);
      assert ClusterLoop(env, n, c, st) == ClusterLoop(env, n, c, next);
      assert pass.successes <= |st.groups|;
      assert Sum(next.sizes) == Sum(st.sizes) + |st.groups| by {
        assert next.sizes[..|st.sizes|] == st.sizes;
      }
      ClusterLoopSpec(env, n, c, next);
    } else {
      assert ClusterLoop(env, n, c, st) == st;
    }
  }

  /**
   * Without the ceiling of the newer manager: a cluster of 20 contact points
   * whose groups never stop being active gets 1200 passes, above 1000.
   */
  lemma NoCeiling(env: Env, n: nat, c: Group, st: Loop)
    requires LoopOk(env, n, c, st) && |st.sizes| == 0
    requires forall fs: seq<Floe> :: |env.active(c, fs)| > 0
    requires NumContacts(c) == 20
    ensures |ClusterLoop(env, n, c, st).sizes| == 1200
  {
    ClusterLoopSpec(env, n, c, st);
  }

  /** `solve_contacts`: the clusters in order, each on the scene the previous ones left. */
  function SolveContacts(env: Env, n: nat, clusters: seq<Group>, sc: Scene, lcpCount: nat, successes: nat): (r: (Scene, nat, nat))
    requires Sound(env, n) && |sc.floes| == n
    ensures |r.0.floes| == n
    ensures r.1 >= lcpCount && r.2 >= successes
    ensures r.2 - successes <= r.1 - lcpCount
    decreases |clusters|
  {
    if |clusters| == 0 then (sc, lcpCount, successes)
    else
      var c := clusters[0];
      var st := Loop(env.active(c, sc.floes), sc, lcpCount, successes, []);
      ClusterLoopSpec(env, n, c, st);
      var r := ClusterLoop(env, n, c, st);
      SolveContacts(env, n, clusters[1..], r.scene, r.lcpCount, r.successes)
  }
}

=== FILE: pack_creator.dfy ===
/**
 * Pure helpers of the input-file builder `pack_creator/pack_creator.py` (a
 * Python 3 script): the 9-number state record of an input file, the
 * rectangle outline, the translation of a group of floes, the square window
 * around a pack, and the indices sampled from a library outline.
 */
module PackCreator {
  import opened Wrappers
  import opened Floes
  import Hdf5Output

  // ---------------------------------------------------------------------------
  // State records

  /**
   * `State.get_dataset_slice`: position x and y, orientation, speed x and y,
   * rotation, a zero impulse, and the position x and y again.
   */
  function DatasetSlice(s: FloeState): (r: seq<real>)
    ensures |r| == 9
    ensures r[..6] == Hdf5Output.FrameRow(s)
    ensures r[6] == 0.0 && r[7] == s.pos.x && r[8] == s.pos.y
  {
    [s.pos.x, s.pos.y, s.theta, s.speed.x, s.speed.y, s.rot, 0.0, s.pos.x, s.pos.y]
  }

  /**
   * The state `get_floes_from_output_file` rebuilds from one floe's record of
   * `floe_states` at the chosen time: position from columns 7 and 8,
   * orientation from column 2, zero speed and the default zero rotation.
   *
   * The reader expects at least 9 columns.  The rows `Hdf5Output.FrameRow`
   * writes have 6, with no columns 7 and 8, so the two layouts disagree and a
   * writer-to-reader round trip between them is not expressible.  The round
   * trip below pairs the reader with the 9-number record of
   * `get_dataset_slice` instead.
   */
  function StateFromRecord(rec: seq<real>): (r: FloeState)
    requires |rec| >= 9
    ensures r.pos == Vec(rec[7], rec[8]) && r.theta == rec[2]
    ensures r.speed == Vec(0.0, 0.0) && r.rot == 0.0
  {
    FloeState(Vec(rec[7], rec[8]), rec[2], Vec(0.0, 0.0), 0.0)
  }

  /**
   * The reader looks at columns 2, 7 and 8 only: records that agree there give
   * the same state, whatever their first position, velocities or impulse.
   */
  lemma RecordReadsPoseColumnsOnly(a: seq<real>, b: seq<real>)
    requires |a| >= 9 && |b| >= 9
    ensures StateFromRecord(a) == StateFromRecord(b) <==> a[2] == b[2] && a[7] == b[7] && a[8] == b[8]
  {
  }

  /** Reading a record back keeps position and orientation and drops the velocities. */
  lemma RecordRoundTrip(s: FloeState)
    ensures StateFromRecord(DatasetSlice(s)) == s.(speed := Vec(0.0, 0.0), rot := 0.0)
    ensures s.speed == Vec(0.0, 0.0) && s.rot == 0.0 ==> StateFromRecord(DatasetSlice(s)) == s
  {
  }

  // ---------------------------------------------------------------------------
  // Rectangle outline

  /** `rectangle_floe_shape`: the corners `(±xlen/2, ±ylen/2)`, starting bottom right. */
  function RectangleShape(xlen: real, ylen: real): (pts: seq<Vec>)
    ensures |pts| == 4
  {
    var x := xlen / 2.0;
    var y := ylen / 2.0;
    [Vec(x, -y), Vec(x, y), Vec(-x, y), Vec(-x, -y)]
  }

  /** Twice the signed area of a closed polygon (shoelace formula): positive when counter-clockwise. */
  function SignedArea2(pts: seq<Vec>): real {
    if |pts| < 3 then 0.0 else ShoelaceSum(pts, 0)
  }

  function ShoelaceSum(pts: seq<Vec>, i: nat): real
    requires i <= |pts| && |pts| > 0
    decreases |pts| - i
  {
    if i == |pts| then 0.0
    else
      var b := if i + 1 == |pts| then pts[0] else pts[i + 1];
      Cross(pts[i], b) + ShoelaceSum(pts, i + 1)
  }

  function Cross(a: Vec, b: Vec): real {
    a.x * b.y - b.x * a.y
  }

  function Centroid(pts: seq<Vec>): Vec
    requires |pts| > 0
  {
    Vec(SumX(pts) / (|pts| as real), SumY(pts) / (|pts| as real))
  }

  function SumX(pts: seq<Vec>): real {
    if |pts| == 0 then 0.0 else SumX(pts[..|pts| - 1]) + pts[|pts| - 1].x
  }

  function SumY(pts: seq<Vec>): real {
    if |pts| == 0 then 0.0 else SumY(pts[..|pts| - 1]) + pts[|pts| - 1].y
  }

  /**
   * The rectangle has area `xlen * ylen`, is traversed counter-clockwise for
   * positive sides, and its vertices are centred on the origin.
   */
  lemma RectangleIsCounterClockwise(xlen: real, ylen: real)
    ensures SignedArea2(RectangleShape(xlen, ylen)) == 2.0 * xlen * ylen
    ensures xlen > 0.0 && ylen > 0.0 ==> SignedArea2(RectangleShape(xlen, ylen)) > 0.0
    ensures Centroid(RectangleShape(xlen, ylen)) == Vec(0.0, 0.0)
  {
    var pts := RectangleShape(xlen, ylen);
    var x := xlen / 2.0;
    var y := ylen / 2.0;
    assert ShoelaceSum(pts, 4) == 0.0;
    assert ShoelaceSum(pts, 3) == 2.0 * x * y;
    assert ShoelaceSum(pts, 2) == 4.0 * x * y;
    assert ShoelaceSum(pts, 1) == 6.0 * x * y;
    assert ShoelaceSum(pts, 0) == 8.0 * x * y;
    if xlen > 0.0 && ylen > 0.0 {
      assert xlen * ylen > 0.0;
    }
    SumsOfFour(pts);
  }

  lemma SumsOfFour(p: seq<Vec>)
    requires |p| == 4
    ensures SumX(p) == p[0].x + p[1].x + p[2].x + p[3].x
    ensures SumY(p) == p[0].y + p[1].y + p[2].y + p[3].y
  {
    assert p[..3][..2] == p[..2];
    assert p[..2][..1] == p[..1];
    assert p[..1][..0] == [];
    assert SumX(p[..1]) == p[0].x && SumY(p[..1]) == p[0].y;
    assert SumX(p[..2]) == p[0].x + p[1].x && SumY(p[..2]) == p[0].y + p[1].y;
    assert SumX(p[..3]) == p[0].x + p[1].x + p[2].x && SumY(p[..3]) == p[0].y + p[1].y + p[2].y;
    assert p[..4] == p;
  }

  // ---------------------------------------------------------------------------
  // Translation

  /** A floe of the builder: its outline relative to its centre, and its state. */
  datatype PackFloe = PackFloe(shape: seq<Vec>, state: FloeState)

  /** `translate_floe_group`: every position moved by `(x, y)`; nothing else changes. */
  function TranslateFloeGroup(floes: seq<PackFloe>, x: real, y: real): (r: seq<PackFloe>)
    ensures |r| == |floes|
    ensures forall i :: 0 <= i < |floes| ==>
      && r[i].state.pos == Add(floes[i].state.pos, Vec(x, y))
      && r[i].shape == floes[i].shape
      && r[i].state.(pos := floes[i].state.pos) == floes[i].state
  {
    seq(|floes|, i requires 0 <= i < |floes| =>
      floes[i].(state := floes[i].state.(pos := Vec(floes[i].state.pos.x + x, floes[i].state.pos.y + y))))
  }

  /** Translating back by the opposite offset restores the group. */
  lemma TranslateInverse(floes: seq<PackFloe>, x: real, y: real)
    ensures TranslateFloeGroup(TranslateFloeGroup(floes, x, y), -x, -y) == floes
  {
    var back := TranslateFloeGroup(TranslateFloeGroup(floes, x, y), -x, -y);
    forall i | 0 <= i < |floes|
      ensures back[i] == floes[i]
    {
    }
  }

  // ---------------------------------------------------------------------------
  // Window

  /** Every outline vertex of every floe, in absolute coordinates, floe after floe. */
  function AbsolutePoints(floes: seq<PackFloe>): (pts: seq<Vec>)
    ensures forall i, k :: 0 <= i < |floes| && 0 <= k < |floes[i].shape| ==>
      Add(floes[i].shape[k], floes[i].state.pos) in pts
    ensures forall p :: p in pts ==>
      exists i, k :: 0 <= i < |floes| && 0 <= k < |floes[i].shape| && p == Add(floes[i].shape[k], floes[i].state.pos)
    decreases |floes|
  {
    if |floes| == 0 then []
    else
      var last := floes[|floes| - 1];
      var init := AbsolutePoints(floes[..|floes| - 1]);
      var tail := seq(|last.shape|, k requires 0 <= k < |last.shape| => Add(last.shape[k], last.state.pos));
      assert forall i :: 0 <= i < |floes| - 1 ==> floes[..|floes| - 1][i] == floes[i];
      assert forall k :: 0 <= k < |last.shape| ==> Add(last.shape[k], last.state.pos) == tail[k];
      init + tail
  }

  /** The bounding box of a non-empty point list: `(min_x, max_x, min_y, max_y)`. */
  datatype Box = Box(minX: real, maxX: real, minY: real, maxY: real)

  function BoundingBox(pts: seq<Vec>): (b: Box)
    requires |pts| > 0
    ensures forall p :: p in pts ==> b.minX <= p.x <= b.maxX && b.minY <= p.y <= b.maxY
    ensures exists p :: p in pts && p.x == b.minX
    ensures exists p :: p in pts && p.x == b.maxX
    ensures exists p :: p in pts && p.y == b.minY
    ensures exists p :: p in pts && p.y == b.maxY
    decreases |pts|
  {
    var p := pts[|pts| - 1];
    if |pts| == 1 then Box(p.x, p.x, p.y, p.y)
    else
      var b := BoundingBox(pts[..|pts| - 1]);
      assert forall q :: q in pts ==> q in pts[..|pts| - 1] || q == p;
      Box(if p.x < b.minX then p.x else b.minX, if p.x > b.maxX then p.x else b.maxX,
          if p.y < b.minY then p.y else b.minY, if p.y > b.maxY then p.y else b.maxY)
  }

  /** The window `[x_min, x_max, y_min, y_max]` an input file records. */
  datatype Window = Window(x0: real, x1: real, y0: real, y1: real)

  /**
   * `get_window`: a square 1.01 times the larger side of the bounding box of
   * all absolute vertices, centred on the box's middle; `None` where Python's
   * `max` of no vertices raises.
   */
  function GetWindow(floes: seq<PackFloe>): (w: Option<Window>)
    ensures w.None? <==> |AbsolutePoints(floes)| == 0
  {
    var pts := AbsolutePoints(floes);
    if |pts| == 0 then None
    else
      var b := BoundingBox(pts);
      var width := (if b.maxX - b.minX >= b.maxY - b.minY then b.maxX - b.minX else b.maxY - b.minY) * 1.01;
      var cx := (b.minX + b.maxX) / 2.0;
      var cy := (b.minY + b.maxY) / 2.0;
      Some(Window(cx - width / 2.0, cx + width / 2.0, cy - width / 2.0, cy + width / 2.0))
  }

  /**
   * The window is a square centred on the middle of the bounding box, and it
   * contains every absolute vertex of every floe.
   */
  lemma WindowIsSquareAndCovers(floes: seq<PackFloe>)
    requires |AbsolutePoints(floes)| > 0
    ensures var w := GetWindow(floes).value;
      var b := BoundingBox(AbsolutePoints(floes));
      && w.x1 - w.x0 == w.y1 - w.y0
      && (w.x0 + w.x1) / 2.0 == (b.minX + b.maxX) / 2.0
      && (w.y0 + w.y1) / 2.0 == (b.minY + b.maxY) / 2.0
    ensures var w := GetWindow(floes).value;
      forall i, k :: 0 <= i < |floes| && 0 <= k < |floes[i].shape| ==>
        && w.x0 <= floes[i].shape[k].x + floes[i].state.pos.x <= w.x1
        && w.y0 <= floes[i].shape[k].y + floes[i].state.pos.y <= w.y1
  {
    var pts := AbsolutePoints(floes);
    var b := BoundingBox(pts);
    var w := GetWindow(floes).value;
    forall i, k | 0 <= i < |floes| && 0 <= k < |floes[i].shape|
      ensures w.x0 <= floes[i].shape[k].x + floes[i].state.pos.x <= w.x1
      ensures w.y0 <= floes[i].shape[k].y + floes[i].state.pos.y <= w.y1
    {
      var p := Add(floes[i].shape[k], floes[i].state.pos);
      assert p in pts;
    }
  }

  // ---------------------------------------------------------------------------
  // Library outline sampling

  /**
   * The index formula of `_discretize_biblio_floes`: `n = min(nMax, len)`
   * points, the `i`-th taken at `floor(len * i / n)`.
   */
  function SampleIndices(len: nat, nMax: int): (r: seq<nat>)
    ensures |r| == if Min(nMax, len) <= 0 then 0 else Min(nMax, len)
  {
    var n := Min(nMax, len);
    if n <= 0 then []
    else seq(n, i requires 0 <= i < n => SampleAt(len, n, i))
  }

  function SampleAt(len: nat, n: nat, i: nat): nat
    requires n > 0
  {
    MulNonNeg(len, i);
    (len * i) / n
  }

  /** The sampled indices are strictly increasing and within the outline. */
  lemma SampleIndicesIncreasing(len: nat, nMax: int)
    ensures var r := SampleIndices(len, nMax);
      && (forall i :: 0 <= i < |r| ==> r[i] < len)
      && (forall i, j :: 0 <= i < j < |r| ==> r[i] < r[j])
  {
    var n := Min(nMax, len);
    if n > 0 {
      var r := SampleIndices(len, nMax);
      forall i | 0 <= i < n
        ensures r[i] < len
      {
        SampleBelow(len, n, i);
      }
      forall i, j | 0 <= i < j < n
        ensures r[i] < r[j]
      {
        SampleStep(len, n, i, j);
      }
    }
  }

  lemma MulNonNeg(x: int, y: int)
    requires x >= 0 && y >= 0
    ensures x * y >= 0
  {
  }

  lemma MulMono(x: int, y: int, n: int)
    requires x <= y && n >= 0
    ensures x * n <= y * n
  {
    assert y * n - x * n == (y - x) * n;
    MulNonNeg(y - x, n);
  }

  lemma SampleBelow(len: nat, n: nat, i: nat)
    requires 0 < n <= len && i < n
    ensures SampleAt(len, n, i) < len
  {
    MulMono(i + 1, n, len);
    assert len * i + len <= len * n by {
      assert (i + 1) * len == i * len + len;
    }
    var q := (len * i) / n;
    assert q * n <= len * i;
    if q >= len {
      MulMono(len, q, n);
      assert false;
    }
  }

  lemma SampleStep(len: nat, n: nat, i: nat, j: nat)
    requires 0 < n <= len && i < j
    ensures SampleAt(len, n, i) < SampleAt(len, n, j)
  {
    MulMono(i + 1, j, len);
    assert (i + 1) * len == i * len + len;
    MulNonNeg(len, i);
    DivPlus(len * i, len * j, n);
  }

  lemma DivPlus(a: int, b: int, n: int)
    requires n > 0 && a >= 0 && b >= a + n
    ensures a / n < b / n
  {
    var qa := a / n;
    var qb := b / n;
    assert a == qa * n + a % n;
    assert b == qb * n + b % n;
    if qb <= qa {
      MulMono(qb, qa, n);
      assert false;
    }
  }
}

=== FILE: plotter.dfy ===
/**
 * Two index helpers of the plotting tool `plot/plotter.py`, a Python 2 script
 * (integer `/` is floor division): the split of the steps of a film into
 * contiguous ranges, one per worker process, and the impulses each floe
 * received over a lag, with outlier steps hidden.
 */
module Plotter {
  import opened Floes

  // ---------------------------------------------------------------------------
  // _get_trunks

  /** `min(cpu_count(), max(nb_steps / 5, 1))`: the number of worker processes. */
  function ProcessCount(nbSteps: nat, cpu: nat): nat {
    Min(cpu, Max(nbSteps / 5, 1))
  }

  /** Where range `i` starts: the `i` ranges before it, the first `rest` of them one longer. */
  function TrunkStart(i: nat, size: nat, rest: nat): nat {
    i * size + Min(i, rest)
  }

  /**
   * `_get_trunks`: `nb_process` ranges, of `nb_steps / nb_process` steps each
   * plus one for the first `nb_steps % nb_process`, laid end to end from 0.
   */
  method GetTrunks(nbSteps: nat, cpu: nat) returns (r: seq<(nat, nat)>)
    requires cpu >= 1
    ensures |r| == ProcessCount(nbSteps, cpu) && |r| >= 1
    ensures r[0].0 == 0 && r[|r| - 1].1 == nbSteps
    ensures forall i :: 0 <= i < |r| - 1 ==> r[i].1 == r[i + 1].0
    ensures forall i :: 0 <= i < |r| ==>
      r[i].1 == r[i].0 + nbSteps / |r| + (if i < nbSteps % |r| then 1 else 0)
    ensures forall i, k :: 0 <= i <= k < |r| ==>
      r[k].1 as int - r[k].0 <= r[i].1 as int - r[i].0 <= r[k].1 as int - r[k].0 + 1
  {
    var np := ProcessCount(nbSteps, cpu);
    var size := nbSteps / np;
    var rest := nbSteps % np;
    r := [];
    var j: nat := 0;
    TrunkFirst(size, rest);
    for i := 0 to np
      invariant |r| == i
      invariant j == TrunkStart(i, size, rest)
      invariant i > 0 ==> r[0].0 == 0 && r[i - 1].1 == j
      invariant forall k :: 0 <= k < i - 1 ==> r[k].1 == r[k + 1].0
      invariant forall k :: 0 <= k < i ==> r[k].1 == r[k].0 + size + (if k < rest then 1 else 0)
    {
      var add := if i < rest then 1 else 0;
      TrunkNext(i, size, rest);
      r := r + [(j, j + size + add)];
      j := j + size + add;
    }
    TrunkEnd(nbSteps, np);
  }

  lemma TrunkFirst(size: nat, rest: nat)
    ensures TrunkStart(0, size, rest) == 0
  {
  }

  lemma TrunkNext(i: nat, size: nat, rest: nat)
    ensures TrunkStart(i + 1, size, rest) == TrunkStart(i, size, rest) + size + (if i < rest then 1 else 0)
  {
    assert (i + 1) * size == i * size + size;
  }

  /** The last range ends at `nb_steps`. */
  lemma TrunkEnd(nbSteps: nat, np: nat)
    requires np >= 1
    ensures TrunkStart(np, nbSteps / np, nbSteps % np) == nbSteps
  {
    assert Min(np, nbSteps % np) == nbSteps % np;
  }

  // ---------------------------------------------------------------------------
  // calc_impulses

  /** The threshold above which a step's impulses are taken as an outlier. */
  const OutlierBound: real := 100000000.0

  /** `np.amax`: the largest entry of a non-empty vector. */
  function MaxOf(v: seq<real>): (m: real)
    requires |v| > 0
    ensures forall k :: 0 <= k < |v| ==> v[k] <= m
    ensures exists k :: 0 <= k < |v| && v[k] == m
    decreases |v|
  {
    if |v| == 1 then v[0]
    else
      var rest := MaxOf(v[1..]);
      assert forall k :: 1 <= k < |v| ==> v[k] == v[1..][k - 1];
      if v[0] >= rest then v[0] else rest
  }

  predicate Outlier(v: seq<real>)
    requires |v| > 0
  {
    MaxOf(v) > OutlierBound
  }

  /** The impulse column (index 6) of each floe's row at one step. */
  function ImpulseColumn(states: seq<seq<real>>): (v: seq<real>)
    requires forall k :: 0 <= k < |states| ==> |states[k]| > 6
    ensures |v| == |states| && forall k :: 0 <= k < |states| ==> v[k] == states[k][6]
  {
    seq(|states|, k requires 0 <= k < |states| => states[k][6])
  }

  /** The input `calc_impulses` expects: the same non-zero number of floes at every step, each row with an impulse column. */
  predicate WellShaped(floeStates: seq<seq<seq<real>>>, m: nat) {
    && m > 0
    && (forall t :: 0 <= t < |floeStates| ==> |floeStates[t]| == m)
    && (forall t, k :: 0 <= t < |floeStates| && 0 <= k < |floeStates[t]| ==> |floeStates[t][k]| > 6)
  }

  /** The impulse received between step `max(t - n, 0)` and step `t`, floe by floe. */
  function LagDiff(floeStates: seq<seq<seq<real>>>, m: nat, n: nat, t: nat): (d: seq<real>)
    requires WellShaped(floeStates, m) && t < |floeStates|
    ensures |d| == m
    ensures forall k :: 0 <= k < m ==>
      d[k] == floeStates[t][k][6] - floeStates[if t >= n then t - n else 0][k][6]
  {
    var now := ImpulseColumn(floeStates[t]);
    var before := ImpulseColumn(floeStates[if t >= n then t - n else 0]);
    seq(m, k requires 0 <= k < m => now[k] - before[k])
  }

  /** The latest step at or before `i` whose lagged impulses are not an outlier. */
  function LastGood(floeStates: seq<seq<seq<real>>>, m: nat, n: nat, i: nat): (j: nat)
    requires WellShaped(floeStates, m) && i < |floeStates|
    ensures j <= i && !Outlier(LagDiff(floeStates, m, n, j))
    ensures forall k :: j < k <= i ==> Outlier(LagDiff(floeStates, m, n, k))
  {
    if i == 0 then FirstStepNotOutlier(floeStates, m, n); 0
    else if !Outlier(LagDiff(floeStates, m, n, i)) then i
    else LastGood(floeStates, m, n, i - 1)
  }

  /** The first step is compared with itself: its lagged impulses are all zero. */
  lemma FirstStepNotOutlier(floeStates: seq<seq<seq<real>>>, m: nat, n: nat)
    requires WellShaped(floeStates, m) && |floeStates| > 0
    ensures forall k :: 0 <= k < m ==> LagDiff(floeStates, m, n, 0)[k] == 0.0
    ensures !Outlier(LagDiff(floeStates, m, n, 0))
  {
    var d := LagDiff(floeStates, m, n, 0);
    var k :| 0 <= k < |d| && d[k] == MaxOf(d);
  }

  /** Every step's vector is non-empty, so its maximum exists. */
  predicate NonEmptyRows(diffs: seq<seq<real>>) {
    forall t :: 0 <= t < |diffs| ==> |diffs[t]| > 0
  }

  /**
   * What the replacement loop leaves at step `i`: the step's own vector, or,
   * for an outlier step after the first, what it left at the step before.
   */
  ghost function Smoothed(diffs: seq<seq<real>>, i: nat): seq<real>
    requires NonEmptyRows(diffs) && i < |diffs|
    decreases i
  {
    if i > 0 && Outlier(diffs[i]) then Smoothed(diffs, i - 1) else diffs[i]
  }

  /**
   * The replacement loop of `calc_impulses`: an outlier step takes the value
   * the loop left at the step before (Python's `imps[-1]`, the last step, at
   * step 0, which the caller guarantees is not an outlier).
   */
  method ReplaceOutliers(diffs: seq<seq<real>>) returns (imps: seq<seq<real>>)
    requires NonEmptyRows(diffs) && (|diffs| > 0 ==> !Outlier(diffs[0]))
    ensures |imps| == |diffs|
    ensures forall k :: 0 <= k < |imps| ==> imps[k] == Smoothed(diffs, k)
  {
    imps := diffs;
    for i := 0 to |imps|
      invariant |imps| == |diffs|
      invariant forall k :: 0 <= k < i ==> imps[k] == Smoothed(diffs, k)
      invariant forall k :: i <= k < |imps| ==> imps[k] == diffs[k]
    {
      if MaxOf(imps[i]) > OutlierBound {
        imps := imps[i := imps[if i == 0 then |imps| - 1 else i - 1]];
      }
    }
  }

  /** The loop's result at step `i` is the lagged difference at the latest non-outlier step. */
  lemma {:induction false} SmoothedIsLastGood(floeStates: seq<seq<seq<real>>>, m: nat, n: nat, diffs: seq<seq<real>>, i: nat)
    requires WellShaped(floeStates, m) && i < |floeStates| == |diffs|
    requires forall t :: 0 <= t < |diffs| ==> diffs[t] == LagDiff(floeStates, m, n, t)
    ensures NonEmptyRows(diffs)
    ensures Smoothed(diffs, i) == LagDiff(floeStates, m, n, LastGood(floeStates, m, n, i))
    decreases i
  {
    if i == 0 {
      FirstStepNotOutlier(floeStates, m, n);
    } else if Outlier(diffs[i]) {
      SmoothedIsLastGood(floeStates, m, n, diffs, i - 1);
    }
  }

  /**
   * `calc_impulses`: the lagged impulse differences, then, step by step, an
   * outlier step replaced by the step before it as already processed.  Every
   * output step is the latest non-outlier difference at or before it.
   */
  method CalcImpulses(floeStates: seq<seq<seq<real>>>, m: nat, n: nat) returns (imps: seq<seq<real>>)
    requires WellShaped(floeStates, m)
    ensures |imps| == |floeStates|
    ensures forall i :: 0 <= i < |imps| ==> |imps[i]| == m && !Outlier(imps[i])
    ensures |imps| > 0 ==> forall k :: 0 <= k < m ==> imps[0][k] == 0.0
    ensures forall i :: 0 <= i < |imps| ==> imps[i] == LagDiff(floeStates, m, n, LastGood(floeStates, m, n, i))
  {
    var diffs := seq(|floeStates|, t requires 0 <= t < |floeStates| => LagDiff(floeStates, m, n, t));
    if |diffs| > 0 {
      FirstStepNotOutlier(floeStates, m, n);
    }
    imps := ReplaceOutliers(diffs);
    SmoothedAll(floeStates, m, n, diffs, imps);
  }

  /** The loop's whole result, step by step the difference at the latest non-outlier step. */
  lemma SmoothedAll(floeStates: seq<seq<seq<real>>>, m: nat, n: nat, diffs: seq<seq<real>>, imps: seq<seq<real>>)
    requires WellShaped(floeStates, m) && |imps| == |floeStates| == |diffs|
    requires forall t :: 0 <= t < |diffs| ==> diffs[t] == LagDiff(floeStates, m, n, t)
    requires NonEmptyRows(diffs)
    requires forall k :: 0 <= k < |imps| ==> imps[k] == Smoothed(diffs, k)
    ensures forall i :: 0 <= i < |imps| ==> |imps[i]| == m && !Outlier(imps[i])
    ensures |imps| > 0 ==> forall k :: 0 <= k < m ==> imps[0][k] == 0.0
    ensures forall i :: 0 <= i < |imps| ==> imps[i] == LagDiff(floeStates, m, n, LastGood(floeStates, m, n, i))
  {
    forall i | 0 <= i < |imps|
      ensures imps[i] == LagDiff(floeStates, m, n, LastGood(floeStates, m, n, i))
    {
      SmoothedIsLastGood(floeStates, m, n, diffs, i);
    }
    if |imps| > 0 {
      FirstStepNotOutlier(floeStates, m, n);
    }
  }
}

=== FILE: wrappers.dfy ===
/** The optional-value datatype used for results that may be missing. */
module Wrappers {

  datatype Option<+T> = None | Some(value: T)
}
